=== FILE: README.md ===
# Slips output process, Zeek notice analyzer and dashboard read model, in Dafny

This project models three pieces of Slips, the Stratosphere behavioural intrusion
prevention system:

- **The output process** (`slips_files/core/outputProcess.py`). Every Slips module sends
  it lines of the form `level|sender|msg` over a queue. The level is two digits: a
  verbosity digit and a debug digit. `process_line` splits the line and normalises the
  level. `output_line` decides from the two digits and the configured `-v` and `-e`
  levels what is printed, what is appended to `slips.log` and what goes to `errors.log`.
  `log_line` drops most lines in daemon mode (`-D`). `run` loops over the queue. It
  handles the `quiet`, `stop`/`stop_process` and `log-only` control lines, and ends with
  `shutdown_gracefully`, which publishes on `finished_modules`. The terminal, the log
  files and the database bus are replaced by a sequence of `Effect`s. The loop is a
  function of the configuration and the queued lines.
- **The Zeek notice analyzer** of the flow-alerts module (`modules/flowalerts/notice.py`).
  For a message on `new_notice` it looks at the `note` Zeek attached to the flow. It
  records evidence of a vertical port scan (`Port_Scan`), a horizontal port scan
  (`Address_Scan`) or password guessing (`Password_Guessing`, credited to Zeek). The
  evidence calls are returned as a sequence, in call order.
- **The hotkeys read model of the web dashboard** (`webinterface/hotkeys/hotkeys.py`).
  Each view turns what the database holds into the rows the page displays:
  - the profile/timewindow tree with its blocked marks (`set_profile_tws`, `get_all_tw_with_ts`);
  - the outgoing and incoming tuple tables with their IP information (`set_outtuples`,
    `set_intuples`, `get_ip_info`);
  - the searchable flow timeline (`set_timeline`);
  - the alert table (`set_alerts`) and the evidence table of one alert (`set_evidence`).

  Database reads arrive already decoded. A Python exception that escapes a view is the
  `Failure` of a `Result`, carrying the exception kind (`Fault`).

The files are:

- `wrappers.dfy`: `Option` and `Result`.
- `strings.dfy`: the Python `str` operations used, which are `in`, `split`, `join`,
  `replace(pat, '')`, `strip`, `lower` and `int`.
- `json.dfy`: decoded JSON values and insertion-ordered dicts.
- `output_process.dfy`, `notice.dfy` and `hotkeys.dfy`: one module per source file.

The model follows the code as written, including where it does less or more than its
names and comments suggest:

- A line is printed when *either* digit of its level is active (1 to 3) and within the
  configured level (`slips_files/core/outputProcess.py:214-221`). A level whose verbosity
  digit is 0 can therefore still be printed through its debug digit.
- A `quiet` line does not keep file logging going while the terminal is silent. Once it
  has arrived, the next line other than `quiet` shuts the process down, without handling
  that line. The comment at `slips_files/core/outputProcess.py:263-264` records that
  lines arriving after a stop were meant to be shown for a while, and that this was not
  done.
- The timewindow display name uses `id.split("timewindow")[1]`
  (`webinterface/hotkeys/hotkeys.py:51`). That is the text between the first and the
  second occurrence, not everything after the first.
- `set_alerts` reads each alert's start time from the evidence hash, under the *alert*
  id (`webinterface/hotkeys/hotkeys.py:313`).
- A blocked timewindow that the profile does not list still appears in the tree
  (`webinterface/hotkeys/hotkeys.py:130-133`). Because the tree is a `defaultdict`, it
  becomes a node that is blocked and has no name.
- An IP that is a key of the blocked hash marks its profile blocked even when its list of
  timewindows is empty.

## Model

| member | source | states |
|---|---|---|
| Strings.Split | slips_files/core/outputProcess.py:145 | `str.split` gives at least one piece, gives two or more exactly when the separator occurs, and no piece contains the separator |
| Strings.SplitJoin | slips_files/core/outputProcess.py:175 | joining the pieces of a split with the separator gives back the original string |
| Strings.RemoveChar | webinterface/hotkeys/hotkeys.py:263 | `replace(c, '')` with a one-character pattern deletes exactly the occurrences of that character |
| Strings.SplitBefore | webinterface/hotkeys/hotkeys.py:51 | `split(sep)` of `a + sep + b`, where `a` holds no `sep` and `sep`'s first character does not recur in it, is `a` followed by the pieces of `b` |
| Strings.RemoveLeadingPattern | slips_files/core/outputProcess.py:254 | `replace(pat, '')` on a string that starts with `pat` and holds it nowhere else gives the rest of the string |
| Strings.Strip | webinterface/hotkeys/hotkeys.py:259 | `strip` returns the infix of the filter that lies between its leading and its trailing whitespace runs: everything before and after it is whitespace, and its own first and last characters are not; it is empty exactly when the filter is all whitespace |
| Strings.LowerNoUpper | webinterface/hotkeys/hotkeys.py:286 | a lowered string holds no upper-case letter, so lowering both sides of the search a second time changes nothing |
| Strings.ParseShowInt | slips_files/core/outputProcess.py:146 | `int` reads back every decimal rendering of an integer |
| Json.Lookup | webinterface/hotkeys/hotkeys.py:336 | a dict lookup misses exactly when no entry has the key, and a hit returns an entry's value |
| Json.LookupEntry | webinterface/hotkeys/hotkeys.py:336 | in a dict with distinct keys, every key finds the value stored beside it |
| OutputProcess.NormaliseLevel | slips_files/core/outputProcess.py:144-162 | a non-integer level exits with status -1; a valid level is kept; an integer out of [0,100) or shorter than two characters becomes "00" |
| OutputProcess.ProcessLine | slips_files/core/outputProcess.py:115-193 | fails exactly when the level is not an integer (status -1) or the sender field is missing (status 1); on success the level is valid and the message holds no separator character |
| OutputProcess.ConcatAvoids | slips_files/core/outputProcess.py:175 | joining pieces that lack a character gives a message without it |
| OutputProcess.ProcessWellFormedLine | slips_files/core/outputProcess.py:143-182 | a line of level, sender and message joined by the separator gives the normalised level, `[sender] ` and the message with its own separator characters removed |
| OutputProcess.FieldsOfWellFormedLine | slips_files/core/outputProcess.py:145-175 | the fields of such a line are the level, the sender, then the pieces of the message |
| OutputProcess.ProcessTwoFieldLine | slips_files/core/outputProcess.py:143-182 | a line with only a level and a sender gives the normalised level, `[sender] ` and the empty message |
| OutputProcess.ProcessLineWithoutSender | slips_files/core/outputProcess.py:164-193 | a line without the separator ends the process: status 1 when the level is an integer, -1 otherwise |
| OutputProcess.LogLine | slips_files/core/outputProcess.py:91-104 | outside daemon mode every line reaches slips.log; in daemon mode exactly the lines whose sender mentions `update` or `stopping` do |
| OutputProcess.ShadeKeepsStart | slips_files/core/outputProcess.py:209-224 | the warning colour codes neither create nor hide a `Start` banner: the highlighted message contains `Start` exactly when the message does |
| OutputProcess.Effects | slips_files/core/outputProcess.py:222-231 | a routed print, slips.log entry or errors.log entry appears among the effects exactly when it was routed, each once, in the order print, slips.log, errors.log, and nothing is published |
| OutputProcess.OutputLine | slips_files/core/outputProcess.py:204-231 | fails exactly when a level character is not a digit; prints exactly when a digit is active and within the configured level; a printed `Start` message is printed bare and not logged; any other printed line is printed and passed to `log_line` with its sender; a line not printed is not logged; sends debug-1 lines to errors.log unless they are printed as a `Start` banner |
| OutputProcess.SilentLevel | slips_files/core/outputProcess.py:214-231 | level "00" is never printed or logged |
| OutputProcess.ErrorsReachErrorLog | slips_files/core/outputProcess.py:228-231 | a debug-1 message without `Start` always reaches errors.log |
| OutputProcess.PrintingMonotone | slips_files/core/outputProcess.py:214-221 | raising the configured levels never hides a printed line |
| OutputProcess.InactiveDigitsSilent | slips_files/core/outputProcess.py:214-221 | a level whose digits are both 0 or above 3 is neither printed nor logged |
| OutputProcess.Shutdown | slips_files/core/outputProcess.py:233-237 | outside daemon mode the shutdown writes the stopping message of `[Output Process]` to slips.log and then publishes `Output` on `finished_modules`; it always ends with that publication |
| OutputProcess.DaemonShutdownOnlyPublishes | slips_files/core/outputProcess.py:233-237 | in daemon mode the shutdown writes nothing to slips.log and only publishes |
| OutputProcess.Step | slips_files/core/outputProcess.py:242-267 | one iteration only appends effects; `quiet` only sets the flag; a stop line appends exactly the shutdown and stops the loop; any other line after `quiet` appends the stopping print and the shutdown and stops the loop; otherwise a `log-only` line is parsed with every `log-only` removed and only passed to `log_line`, and any other line is parsed and routed by `output_line`, whose failure ends the loop |
| OutputProcess.RunFrom | slips_files/core/outputProcess.py:242-281 | a loop that has returned reads nothing more; effects are only appended; quiet stays set |
| OutputProcess.RunFromAppend | slips_files/core/outputProcess.py:242-249 | running over two stretches of the queue in turn equals running over their concatenation |
| OutputProcess.StopEndsRun | slips_files/core/outputProcess.py:247-249 | after a stop line nothing queued later has any effect |
| OutputProcess.ListeningSawNoStop | slips_files/core/outputProcess.py:242-249 | while the loop still listens, no stop line has been read |
| OutputProcess.QuietThenStop | slips_files/core/outputProcess.py:245-267 | after `quiet`, the next other line stops the loop |
| OutputProcess.LogOnlyNeverPrinted | slips_files/core/outputProcess.py:253-256 | a `log-only` line is at most logged, never printed |
| OutputProcess.LogOnlyLineLogged | slips_files/core/outputProcess.py:253-256 | the line `log-only<rest>` is handled as `rest` with the marker gone: it is only passed to `log_line` with the sender and message `process_line` makes of `rest` |
| OutputProcess.MalformedLineExits | slips_files/core/outputProcess.py:253-258 | a line that `process_line` rejects ends the process with that exit status and writes nothing |
| OutputProcess.NegativeZeroLevelCrashes | slips_files/core/outputProcess.py:146-209 | level `-0` passes the level check, then makes reading the digits fail, so the loop returns without a shutdown |
| Notice.CheckVerticalPortscan | modules/flowalerts/notice.py:15-18 | one piece of vertical port scan evidence exactly when the note contains `Port_Scan` |
| Notice.CheckHorizontalPortscan | modules/flowalerts/notice.py:20-23 | one piece of horizontal port scan evidence exactly when the note contains `Address_Scan` |
| Notice.CheckPasswordGuessing | modules/flowalerts/notice.py:25-28 | one piece of password guessing evidence, credited to Zeek, exactly when the note contains `Password_Guessing` |
| Notice.Analyze | modules/flowalerts/notice.py:30-42 | handled exactly when the message is for `new_notice`; otherwise no evidence; at most one piece per kind, in check order, all for the payload's profile, timewindow and flow; only password guessing is credited to Zeek |
| Notice.CheckOrder | modules/flowalerts/notice.py:39-41 | the three checks' results, concatenated, are in check order |
| Notice.EmitsIffMarked | modules/flowalerts/notice.py:15-42 | each kind of evidence is recorded exactly when the message is for `new_notice` and the note contains that kind's marker |
| Notice.MarkersExclusive | modules/flowalerts/notice.py:16-26 | no marker occurs inside another |
| Notice.SingleMarkerNote | modules/flowalerts/notice.py:30-42 | a `new_notice` message whose note is exactly one marker yields exactly one piece of evidence: that kind, the payload's profile, timewindow and flow, credited to Zeek only for password guessing |
| Hotkeys.TwName | webinterface/hotkeys/hotkeys.py:51 | the name fails with IndexError exactly when the id does not contain `timewindow` |
| Hotkeys.TwNameOfTimewindow | webinterface/hotkeys/hotkeys.py:51 | `timewindow<n>` is displayed as `TW <n>:<date>` |
| Hotkeys.TwNameStopsAtSecond | webinterface/hotkeys/hotkeys.py:51 | only the text between the first and the second `timewindow` of the id is displayed; anything after the second is dropped |
| Hotkeys.LatestByKeyEntries | webinterface/hotkeys/hotkeys.py:45-52 | a dict filled by assignment holds exactly the keys assigned, each with its last assigned value |
| Hotkeys.LatestByKeyValues | webinterface/hotkeys/hotkeys.py:45-52 | every value in such a dict was assigned under its key |
| Hotkeys.TwNodes | webinterface/hotkeys/hotkeys.py:47-52 | every timewindow gives an unblocked node named after its id and start date, in order; any id without `timewindow` raises IndexError |
| Hotkeys.AllTwWithTs | webinterface/hotkeys/hotkeys.py:43-53 | fails with IndexError exactly when some timewindow id lacks `timewindow` |
| Hotkeys.AllTwWithTsKeys | webinterface/hotkeys/hotkeys.py:43-53 | the tree holds exactly the profile's timewindows |
| Hotkeys.AllTwWithTsNodes | webinterface/hotkeys/hotkeys.py:47-52 | every node of the tree is unblocked and named |
| Hotkeys.AllTwWithTsNames | webinterface/hotkeys/hotkeys.py:47-52 | each timewindow is named after its last entry |
| Hotkeys.SplitPair | webinterface/hotkeys/hotkeys.py:119 | unpacking a split into two succeeds exactly when the split has two pieces and then gives those pieces, the two sides of the separator; otherwise it raises ValueError |
| Hotkeys.SplitPairOfKey | webinterface/hotkeys/hotkeys.py:126 | `<word>_<ip>` unpacks into its two parts |
| Hotkeys.BlockedEntries | webinterface/hotkeys/hotkeys.py:117-120 | each blocked-hash key gives its IP beside its timewindow list, in order; a key that does not split in two raises ValueError |
| Hotkeys.BlockedByIp | webinterface/hotkeys/hotkeys.py:113-120 | the blocked hash fails with ValueError exactly when some key does not split in two |
| Hotkeys.BlockedByIpKeys | webinterface/hotkeys/hotkeys.py:117-120 | an IP is blocked exactly when some key of the hash names it |
| Hotkeys.BlockedIpsNamed | webinterface/hotkeys/hotkeys.py:117-120 | every blocked IP is named by some key of the blocked hash |
| Hotkeys.NamedIpsBlocked | webinterface/hotkeys/hotkeys.py:117-120 | every IP a key of the blocked hash names is blocked |
| Hotkeys.BlockedByIpValues | webinterface/hotkeys/hotkeys.py:117-120 | a blocked IP's list is the one stored under some key naming it |
| Hotkeys.MarkBlocked | webinterface/hotkeys/hotkeys.py:130-133 | the listed timewindows become blocked and any missing ones are added without a name; all other nodes and every name are kept |
| Hotkeys.ProfileRowOf | webinterface/hotkeys/hotkeys.py:125-135 | a profile row is blocked exactly when its IP is a key of the blocked hash, even with an empty list; then exactly the listed timewindows are blocked and the tree holds the profile's timewindows plus the listed ones; otherwise the tree is the profile's own; the profile's timewindows keep their names |
| Hotkeys.EmptyBlockedListBlocksProfileOnly | webinterface/hotkeys/hotkeys.py:130-133 | an IP listed with no timewindows blocks its profile but none of its timewindows, and leaves the tree unchanged |
| Hotkeys.MapResult | webinterface/hotkeys/hotkeys.py:124-135 | a loop appending `f(x)` gives every result in order, or the error of the first element that raises |
| Hotkeys.SetProfileTws | webinterface/hotkeys/hotkeys.py:107-139 | a bad key of the blocked hash raises ValueError; otherwise the view succeeds exactly when every profile id splits in two and all its timewindows can be named; each row is the tree row of its profile, in order: the profile's IP, blocked exactly when the IP is in the blocked hash, a timewindow blocked exactly when that IP's list names it |
| Hotkeys.RowsOfProfiles | webinterface/hotkeys/hotkeys.py:125-135 | rows that are each their profile's tree row carry the profile's IP and are blocked, timewindow by timewindow, as the blocked map says |
| Hotkeys.GetIpInfo | webinterface/hotkeys/hotkeys.py:58-91 | an uncached IP shows "-" everywhere; a cached one shows its country and reverse DNS, the ASN organisation as a one-element list, the threat summary `<description>,<threat_level> threat level` as a one-element list, and the four VirusTotal scores, with "-" for every field or nested object the cache lacks |
| Hotkeys.EmptyRecordShowsNoInfo | webinterface/hotkeys/hotkeys.py:64-91 | a cached IP whose record is empty shows the same texts as an unknown IP; only the list wrapping of the ASN and threat cells differs |
| Hotkeys.ThreatSummary | webinterface/hotkeys/hotkeys.py:75-76 | a threat-intelligence entry with a description and a level shows `<description>,<level> threat level` |
| Hotkeys.TupleRowOf | webinterface/hotkeys/hotkeys.py:187-193 | a tuple row exists exactly when the key has three `-` pieces and the descriptor list is non-empty; it shows the key, the first descriptor and the IP's information; a key that does not unpack into three parts raises ValueError, and otherwise an empty list raises IndexError |
| Hotkeys.TupleRows | webinterface/hotkeys/hotkeys.py:182-193 | an unset tuple field gives no rows; otherwise one row per tuple, in order, exactly when every tuple is well formed; a failure is the error of the first bad tuple (ValueError for its key, else IndexError for its empty list) |
| Hotkeys.TupleKeyRow | webinterface/hotkeys/hotkeys.py:188-191 | the key `<ip>-<port>-<protocol>` gives a row with the information of that IP |
| Hotkeys.SetOutTuples | webinterface/hotkeys/hotkeys.py:174-197 | when outgoing tuples are stored, the view succeeds exactly when every key reads `<ip>-<port>-<protocol>` and every descriptor list is non-empty; one row per outgoing tuple, with its key, its first descriptor and the IP information of the key's IP; a failure is the error of the first bad tuple, ValueError for a key that does not unpack into three parts, else IndexError for an empty descriptor list |
| Hotkeys.SetInTuples | webinterface/hotkeys/hotkeys.py:199-221 | when incoming tuples are stored, the view succeeds exactly when every key reads `<ip>-<port>-<protocol>` and every descriptor list is non-empty; one row per incoming tuple, with its key, its first descriptor and the IP information of the key's IP; a failure is the error of the first bad tuple, ValueError for a key that does not unpack into three parts, else IndexError for an empty descriptor list |
| Hotkeys.Normalise | webinterface/hotkeys/hotkeys.py:269-276 | fails exactly when `preposition`, `state`, or `saddr` of a `from` flow is missing, with a KeyError naming the first missing key in the order the code reads them: `preposition`, then `saddr`, then `state`; a `from` flow gets its source address as destination; a `notestablished` state becomes `not established`; every other field is kept |
| Hotkeys.NormaliseAll | webinterface/hotkeys/hotkeys.py:266-276 | the timeline succeeds exactly when every flow can be normalised, and keeps every flow in order |
| Hotkeys.ParseFilter | webinterface/hotkeys/hotkeys.py:259-264 | a blank filter shows everything; otherwise the search is inverted exactly when the stripped filter contains `!`, and its pattern is the stripped filter with every `!` removed |
| Hotkeys.Select | webinterface/hotkeys/hotkeys.py:278-291 | the kept flows are an ordered subsequence of the timeline, holding exactly the flows the search keeps |
| Hotkeys.SetTimeline | webinterface/hotkeys/hotkeys.py:249-295 | the timeline view fails exactly when normalising fails; otherwise it shows an ordered subsequence of the normalised flows that holds exactly the flows the filter keeps |
| Hotkeys.SelectAll | webinterface/hotkeys/hotkeys.py:279-280 | without a search every flow is kept, in order |
| Hotkeys.BlankFilterShowsAll | webinterface/hotkeys/hotkeys.py:257-280 | a blank filter shows the whole normalised timeline |
| Hotkeys.SelectPartition | webinterface/hotkeys/hotkeys.py:282-291 | a search and its inversion together hold every flow exactly as often as the timeline does |
| Hotkeys.ParsePlainFilter | webinterface/hotkeys/hotkeys.py:259-264 | a trimmed filter without `!` searches for itself |
| Hotkeys.ParseNegatedFilter | webinterface/hotkeys/hotkeys.py:259-264 | prefixing such a filter with `!` inverts the same search |
| Hotkeys.NegationPartitions | webinterface/hotkeys/hotkeys.py:259-291 | the filters `f` and `!f` split the timeline into the matching flows and the others |
| Hotkeys.StartTime | webinterface/hotkeys/hotkeys.py:314-316 | a string start is shown as it is; an integer, a float or a boolean (as 1 or 0) becomes a date with microseconds; null, a list or an object raise TypeError |
| Hotkeys.SecondPiece | webinterface/hotkeys/hotkeys.py:317 | `split(sep)[1]` raises IndexError exactly when the separator is absent, and otherwise is the second piece of the split, which contains no separator |
| Hotkeys.SecondPieceOfProfile | webinterface/hotkeys/hotkeys.py:317 | the profile id `<word>_<ip>`, with or without further `_` parts, gives its IP |
| Hotkeys.AlertRowOf | webinterface/hotkeys/hotkeys.py:311-322 | an alert missing from the evidence, or without `stime`, raises KeyError; an unreadable start time raises TypeError; a profile id without `_` raises IndexError; a timewindow missing from the tree or without a name raises KeyError; the row exists exactly when none of these happens, and carries the alert id, the evidence count, the start time, the profile's IP and the timewindow's name |
| Hotkeys.SetAlerts | webinterface/hotkeys/hotkeys.py:297-323 | no alerts give no rows; a missing timewindow raises KeyError, an unnameable timewindow IndexError and unset evidence TypeError; otherwise the view succeeds exactly when every alert gives a row, and gives one row per alert, in order |
| Hotkeys.WithTag | webinterface/hotkeys/hotkeys.py:341-343 | the evidence keeps every field and gains `source_target_tag`, which defaults to "-" |
| Hotkeys.SetEvidence | webinterface/hotkeys/hotkeys.py:325-345 | no alerts give no rows; a missing timewindow or alert raises KeyError; otherwise the view succeeds exactly when every evidence id is stored, and the rows are those pieces of evidence with their tag, in order |
| Hotkeys.AlertCountIsEvidenceRows | webinterface/hotkeys/hotkeys.py:311-345 | the count in an alert row equals the number of rows in that alert's evidence table |

## Left out

- Files, the terminal, the clock and the database are not modelled. Their writes are `Effect`s, and the date prefix of log lines is left to the sink.
- Diagnostic prints before an exit or after a caught exception (exception type, arguments, traceback) are not modelled. Only the resulting exit status or `Crashed` is.
- `KeyboardInterrupt` in `run` is not modelled. It is an asynchronous signal, not part of the queue's contents.
- The startup print of the configured levels in the output process's constructor is not modelled, and neither are `create_logfile`, `log_branch_info` and `change_stdout`. They are file and environment setup.
- `log_error`: its write to errors.log is not modelled. The entry it would write is the `ErrorLog` effect of `output_line`.
- The multiprocessing queue is not modelled; it is a sequence of lines.
- Strings.ParseInt: accepts only an optional `-` followed by ASCII decimal digits. It leaves out the surrounding whitespace, the `+` sign, the `_` digit separators and the non-ASCII Unicode decimal digits that Python's `int` also accepts, so such levels count as non-integers.
- Strings.Lower: lowers ASCII letters only. It does not model Unicode case mapping.
- JSON decoding is not modelled. Values arrive decoded, and malformed JSON is outside the model. Integers and floats stay distinct values, as `json.loads` returns them.
- Notice.Analyze: the payload arrives decoded with `profileid`, `twid` and `flow` present. The KeyError that `analyze` raises when one of them is missing is not modelled.
- Python's `str()` of non-string values is the opaque parameter `show`.
- `ts_to_date` is the parameter `toDate`. It is total, so the `OverflowError` or `ValueError` that `datetime.fromtimestamp` can raise for huge timestamps is not modelled.
- `is_msg_intended_for` and `convert_to_flow_obj` are the parameters `intendedFor` and `toFlow` of `Notice.Analyze`. The evidence sinks they call are not modelled; their calls are the returned evidence.
- The order in which `smembers` returns profiles is not modelled; it is whatever order the given sequence has.
- `set_timeline_flows`, `set_ip_info`, `format_tw`, `index` and the Flask routing are not modelled. They are outside the read model's core or only format floats.
- Cache fields of an unexpected JSON type are not modelled. `get_ip_info` would raise on such a non-dict nested object or non-string threat level. The model types those fields as strings and maps.
- Hotkeys.SplitPair: does not restate that its two pieces hold no separator. That follows from `Strings.Split`, whose pieces they are.
- Hotkeys.AllTwWithTs: its contract states only the error case. The tree's contents are stated by `AllTwWithTsKeys`, `AllTwWithTsNodes` and `AllTwWithTsNames`.
- Hotkeys.BlockedByIp: its contract states only the error case. The contents are stated by `BlockedByIpKeys` and `BlockedByIpValues`.
- OutputProcess.OutputLine: requires a level of at least two characters. Its only caller, `run`, passes levels from `process_line`, which guarantees that.

=== FILE: hotkeys.dfy ===
/** The read model behind the web dashboard's hotkeys page: it reshapes what the database
    holds about profiles, timewindows, tuples, timelines, alerts and evidence into the rows
    the page displays. The database reads arrive already decoded as maps and sequences,
    the conversion of timestamps to dates is a parameter, and a Python exception that
    escapes a view is returned as a Fault. */
module Hotkeys {
  import opened Wrappers
  import opened Strings
  import opened Json

  /** A Python exception raised inside a view (the web server answers with an error). */
  datatype Fault = KeyError(key: string) | IndexError | ValueError | TypeError

  /** `ts_to_date(ts, seconds)`: a timestamp as a date, with microseconds when `seconds`. */
  type DateFormat = (real, bool) -> string

  // ---------------------------------------------------------------------------
  // get_all_tw_with_ts
  // ---------------------------------------------------------------------------

  /** One timewindow of the profile tree: its display name (absent when the node was only
      created by the blocked marking) and whether it is blocked. */
  datatype TwNode = TwNode(name: Option<string>, blocked: bool)

  /** The display name of a timewindow: "TW ", the text between the first and the second
      `timewindow` in its id, ":" and its start date. An id without `timewindow` raises
      IndexError. */
  function TwName(twid: string, date: string): (r: Result<string, Fault>)
    ensures r.Failure? <==> !Contains(twid, "timewindow")
    ensures r.Failure? ==> r.error == IndexError
  {
    var pieces := Split(twid, "timewindow");
    if |pieces| < 2 then Failure(IndexError)
    else Success("TW " + pieces[1] + ":" + date)
  }

  /** The usual id `timewindow<n>` is displayed as `TW <n>:<date>`. */
  lemma TwNameOfTimewindow(n: string, date: string)
    requires !Contains(n, "timewindow")
    ensures TwName("timewindow" + n, date) == Success("TW " + n + ":" + date)
  {
    var twid := "timewindow" + n;
    assert OccursAt(twid, "timewindow", 0);
    assert IndexOf(twid, "timewindow") == Some(0);
    assert twid[..0] == "" && twid[10..] == n;
    assert Split(n, "timewindow") == [n];
  }

  /** Only the text between the first and the second `timewindow` is shown: whatever
      follows the second is dropped. */
  lemma TwNameStopsAtSecond(a: string, b: string, date: string)
    requires !Contains(a, "timewindow")
    ensures TwName("timewindow" + a + "timewindow" + b, date) == Success("TW " + a + ":" + date)
  {
    var tw, tail := "timewindow", a + "timewindow" + b;
    var twid := "timewindow" + a + "timewindow" + b;
    assert twid == [] + tw + tail;
    assert tw[0] !in tw[1..] by {
      assert tw[1..] == "imewindow";
    }
    assert !Contains([], tw) by {
      MissingCharNotContained([], tw, 't');
    }
    SplitBefore([], tw, tail);
    SplitBefore(a, tw, b);
    assert Split(twid, tw)[1] == a;
  }

  /** A Python dict filled by assigning `d[k] = v` for each entry in turn: a later entry
      for the same key replaces an earlier one. */
  function LatestByKey<V>(entries: seq<(string, V)>): map<string, V>
  {
    if |entries| == 0 then map[]
    else
      var last := entries[|entries| - 1];
      LatestByKey(entries[..|entries| - 1])[last.0 := last.1]
  }

  /** No later entry carries the key of entry `i`. */
  predicate LastOccurrence<V>(entries: seq<(string, V)>, i: int)
    requires 0 <= i < |entries|
  {
    forall j :: i < j < |entries| ==> entries[j].0 != entries[i].0
  }

  /** The dict holds exactly the keys of the entries, each bound to the value of the last
      entry carrying it. */
  lemma {:induction false} LatestByKeyEntries<V>(entries: seq<(string, V)>)
    ensures forall k :: k in LatestByKey(entries) <==> exists i :: 0 <= i < |entries| && entries[i].0 == k
    ensures forall i {:trigger LastOccurrence(entries, i)} :: 0 <= i < |entries| && LastOccurrence(entries, i) ==>
      LatestByKey(entries)[entries[i].0] == entries[i].1
  {
    if |entries| > 0 {
      var prefix, last := entries[..|entries| - 1], entries[|entries| - 1];
      LatestByKeyEntries(prefix);
      forall k | k in LatestByKey(entries) ensures exists i :: 0 <= i < |entries| && entries[i].0 == k {
        if k != last.0 {
          assert k in LatestByKey(prefix);
          var i :| 0 <= i < |prefix| && prefix[i].0 == k;
          assert entries[i].0 == k;
        }
      }
      forall i | 0 <= i < |entries| ensures entries[i].0 in LatestByKey(entries) {
        if i < |prefix| {
          assert prefix[i].0 == entries[i].0;
        }
      }
      forall i | 0 <= i < |entries| && LastOccurrence(entries, i)
        ensures LatestByKey(entries)[entries[i].0] == entries[i].1
      {
        if i < |prefix| {
          assert LastOccurrence(prefix, i) by {
            forall j | i < j < |prefix| ensures prefix[j].0 != prefix[i].0 {
              assert prefix[j] == entries[j];
            }
          }
          assert prefix[i] == entries[i];
        }
      }
    }
  }

  /** A value stored in the dict is the value of some entry carrying its key. */
  lemma {:induction false} LatestByKeyValues<V>(entries: seq<(string, V)>)
    ensures forall k :: k in LatestByKey(entries) ==>
      exists i :: 0 <= i < |entries| && entries[i] == (k, LatestByKey(entries)[k])
  {
    if |entries| > 0 {
      var prefix, last := entries[..|entries| - 1], entries[|entries| - 1];
      LatestByKeyValues(prefix);
      forall k | k in LatestByKey(entries)
        ensures exists i :: 0 <= i < |entries| && entries[i] == (k, LatestByKey(entries)[k])
      {
        if k == last.0 {
          assert entries[|entries| - 1] == (k, LatestByKey(entries)[k]);
        } else {
          assert k in LatestByKey(prefix) && LatestByKey(entries)[k] == LatestByKey(prefix)[k];
          var i :| 0 <= i < |prefix| && prefix[i] == (k, LatestByKey(prefix)[k]);
          assert entries[i] == prefix[i];
        }
      }
    }
  }

  /** The node of every timewindow, in order, named after its id and start date; the first
      id without `timewindow` aborts. */
  function TwNodes(tws: seq<(string, real)>, toDate: DateFormat): (r: Result<seq<(string, TwNode)>, Fault>)
    ensures r.Failure? <==> exists i :: 0 <= i < |tws| && !Contains(tws[i].0, "timewindow")
    ensures r.Failure? ==> r.error == IndexError
    ensures r.Success? ==> |r.value| == |tws|
    ensures r.Success? ==> forall i :: 0 <= i < |tws| ==>
      r.value[i] == (tws[i].0, TwNode(Some(TwName(tws[i].0, toDate(tws[i].1, false)).value), false))
  {
    if |tws| == 0 then Success([])
    else
      var first := TwName(tws[0].0, toDate(tws[0].1, false));
      var rest := TwNodes(tws[1..], toDate);
      assert forall j :: 0 <= j < |tws| - 1 ==> tws[1..][j] == tws[j + 1];
      if first.Failure? then Failure(first.error)
      else if rest.Failure? then Failure(rest.error)
      else Success([(tws[0].0, TwNode(Some(first.value), false))] + rest.value)
  }

  /** get_all_tw_with_ts: the profile's timewindows (id and start timestamp, in score
      order) as a tree of unblocked nodes named after their id and start date. */
  function AllTwWithTs(tws: seq<(string, real)>, toDate: DateFormat): (r: Result<map<string, TwNode>, Fault>)
    ensures r.Failure? <==> exists i :: 0 <= i < |tws| && !Contains(tws[i].0, "timewindow")
    ensures r.Failure? ==> r.error == IndexError
  {
    var nodes :- TwNodes(tws, toDate);
    Success(LatestByKey(nodes))
  }

  /** The tree holds exactly the profile's timewindows. */
  lemma AllTwWithTsKeys(tws: seq<(string, real)>, toDate: DateFormat)
    requires AllTwWithTs(tws, toDate).Success?
    ensures forall t :: t in AllTwWithTs(tws, toDate).value <==> exists i :: 0 <= i < |tws| && tws[i].0 == t
  {
    var nodes := TwNodes(tws, toDate).value;
    assert forall i :: 0 <= i < |tws| ==> nodes[i].0 == tws[i].0;
    LatestByKeyEntries(nodes);
    forall t ensures t in LatestByKey(nodes) <==> exists i :: 0 <= i < |tws| && tws[i].0 == t {
      if t in LatestByKey(nodes) {
        var i :| 0 <= i < |nodes| && nodes[i].0 == t;
        assert tws[i].0 == t;
      }
    }
  }

  /** Every node of the tree is unblocked and named. */
  lemma AllTwWithTsNodes(tws: seq<(string, real)>, toDate: DateFormat)
    requires AllTwWithTs(tws, toDate).Success?
    ensures forall t :: t in AllTwWithTs(tws, toDate).value ==>
      !AllTwWithTs(tws, toDate).value[t].blocked && AllTwWithTs(tws, toDate).value[t].name.Some?
  {
    var nodes := TwNodes(tws, toDate).value;
    assert forall i :: 0 <= i < |nodes| ==> !nodes[i].1.blocked && nodes[i].1.name.Some?;
    LatestByKeyValues(nodes);
  }

  /** Each timewindow is named after the last entry carrying its id. */
  lemma AllTwWithTsNames(tws: seq<(string, real)>, toDate: DateFormat)
    requires AllTwWithTs(tws, toDate).Success?
    ensures forall i {:trigger LastOccurrence(tws, i)} :: 0 <= i < |tws| && LastOccurrence(tws, i) ==>
      && tws[i].0 in AllTwWithTs(tws, toDate).value
      && AllTwWithTs(tws, toDate).value[tws[i].0].name == Some(TwName(tws[i].0, toDate(tws[i].1, false)).value)
  {
    var nodes := TwNodes(tws, toDate).value;
    LatestByKeyEntries(nodes);
    forall i | 0 <= i < |tws| ensures tws[i].0 in LatestByKey(nodes) {
      assert nodes[i].0 == tws[i].0;
    }
    forall i | 0 <= i < |tws| && LastOccurrence(tws, i) ensures LastOccurrence(nodes, i) {
      forall j | i < j < |nodes| ensures nodes[j].0 != nodes[i].0 {
        assert nodes[j].0 == tws[j].0;
      }
    }
  }

  // ---------------------------------------------------------------------------
  // set_profile_tws
  // ---------------------------------------------------------------------------

  /** `a, b = s.split(sep)`: exactly two pieces, or ValueError. */
  function SplitPair(s: string, sep: string): (r: Result<(string, string), Fault>)
    requires |sep| > 0
    ensures r.Success? <==> |Split(s, sep)| == 2
    ensures r.Failure? ==> r.error == ValueError
    ensures r.Success? ==> r.value == (Split(s, sep)[0], Split(s, sep)[1])
    ensures r.Success? ==> s == r.value.0 + sep + r.value.1
  {
    var pieces := Split(s, sep);
    if |pieces| != 2 then Failure(ValueError)
    else
      SplitJoin(s, sep);
      assert pieces[1..] == [pieces[1]];
      Success((pieces[0], pieces[1]))
  }

  /** A key `<word>_<ip>` whose parts hold no `_` splits back into its parts. */
  lemma SplitPairOfKey(word: string, ip: string)
    requires '_' !in word && '_' !in ip
    ensures SplitPair(word + "_" + ip, "_") == Success((word, ip))
  {
    SplitCons(word, '_', ip);
    ContainsChar(ip, '_');
    assert IndexOf(ip, "_").None?;
    assert Split(ip, "_") == [ip];
  }

  /** The IP of every key `<word>_<ip>` of the blocked hash, beside its blocked
      timewindows, in order; a key that does not split in two aborts. */
  function BlockedEntries(hash: Dict<seq<string>>): (r: Result<seq<(string, seq<string>)>, Fault>)
    ensures r.Failure? <==> exists i :: 0 <= i < |hash| && SplitPair(hash[i].0, "_").Failure?
    ensures r.Failure? ==> r.error == ValueError
    ensures r.Success? ==> |r.value| == |hash|
    ensures r.Success? ==> forall i :: 0 <= i < |hash| ==> r.value[i] == (SplitPair(hash[i].0, "_").value.1, hash[i].1)
  {
    if |hash| == 0 then Success([])
    else
      var pair :- SplitPair(hash[0].0, "_");
      var rest: Dict<seq<string>> := hash[1..];
      var entries :- BlockedEntries(rest);
      assert forall i :: 1 <= i < |hash| ==> hash[i] == rest[i - 1];
      Success([(pair.1, hash[0].1)] + entries)
  }

  /** The `BlockedProfTW` hash as blocked timewindow ids per IP: a later key naming the
      same IP replaces an earlier one. */
  function BlockedByIp(hash: Dict<seq<string>>): (r: Result<map<string, seq<string>>, Fault>)
    ensures r.Failure? <==> exists i :: 0 <= i < |hash| && SplitPair(hash[i].0, "_").Failure?
    ensures r.Failure? ==> r.error == ValueError
  {
    var entries :- BlockedEntries(hash);
    Success(LatestByKey(entries))
  }

  /** An IP is blocked exactly when some key of the hash names it. */
  lemma BlockedByIpKeys(hash: Dict<seq<string>>)
    requires BlockedByIp(hash).Success?
    ensures forall ip :: ip in BlockedByIp(hash).value <==>
      exists i :: 0 <= i < |hash| && SplitPair(hash[i].0, "_").value.1 == ip
  {
    BlockedIpsNamed(hash);
    NamedIpsBlocked(hash);
  }

  /** Every blocked IP is named by some key of the hash. */
  lemma BlockedIpsNamed(hash: Dict<seq<string>>)
    requires BlockedByIp(hash).Success?
    ensures forall ip :: ip in BlockedByIp(hash).value ==>
      exists i :: 0 <= i < |hash| && SplitPair(hash[i].0, "_").value.1 == ip
  {
    var entries := BlockedEntries(hash).value;
    LatestByKeyEntries(entries);
    forall ip | ip in LatestByKey(entries)
      ensures exists i :: 0 <= i < |hash| && SplitPair(hash[i].0, "_").value.1 == ip
    {
      var i :| 0 <= i < |entries| && entries[i].0 == ip;
      assert i < |hash| && entries[i] == (SplitPair(hash[i].0, "_").value.1, hash[i].1);
    }
  }

  /** Every IP a key of the hash names is blocked. */
  lemma NamedIpsBlocked(hash: Dict<seq<string>>)
    requires BlockedByIp(hash).Success?
    ensures forall i :: 0 <= i < |hash| ==> SplitPair(hash[i].0, "_").value.1 in BlockedByIp(hash).value
  {
    var entries := BlockedEntries(hash).value;
    LatestByKeyEntries(entries);
    forall i | 0 <= i < |hash| ensures SplitPair(hash[i].0, "_").value.1 in LatestByKey(entries) {
      assert entries[i].0 == SplitPair(hash[i].0, "_").value.1;
    }
  }

  /** The list of a blocked IP is the one stored under some key naming it. */
  lemma BlockedByIpValues(hash: Dict<seq<string>>)
    requires BlockedByIp(hash).Success?
    ensures forall ip :: ip in BlockedByIp(hash).value ==>
      exists i :: 0 <= i < |hash| && SplitPair(hash[i].0, "_").value.1 == ip && BlockedByIp(hash).value[ip] == hash[i].1
  {
    var entries := BlockedEntries(hash).value;
    LatestByKeyValues(entries);
    var byIp := LatestByKey(entries);
    forall ip | ip in byIp
      ensures exists i :: 0 <= i < |hash| && SplitPair(hash[i].0, "_").value.1 == ip && byIp[ip] == hash[i].1
    {
      var i :| 0 <= i < |entries| && entries[i] == (ip, byIp[ip]);
      assert SplitPair(hash[i].0, "_").value.1 == ip && byIp[ip] == hash[i].1;
    }
  }

  /** The tree marking: each listed timewindow is set blocked, created nameless when the
      profile has no such timewindow; every other node is left as it was. */
  function MarkBlocked(nodes: map<string, TwNode>, blocked: seq<string>): (r: map<string, TwNode>)
    ensures r.Keys == nodes.Keys + (set t | t in blocked)
    ensures forall t :: t in r ==> (r[t].blocked <==> t in blocked || (t in nodes && nodes[t].blocked))
    ensures forall t :: t in nodes ==> r[t].name == nodes[t].name
    ensures forall t :: t in r && t !in nodes ==> r[t].name.None?
    decreases |blocked|
  {
    if |blocked| == 0 then nodes
    else
      var t := blocked[0];
      var marked := if t in nodes then nodes[t].(blocked := true) else TwNode(None, true);
      assert forall u :: u in blocked <==> u == t || u in blocked[1..];
      MarkBlocked(nodes[t := marked], blocked[1..])
  }

  /** One profile of the tree: its IP, its timewindows, whether it is blocked. The `id` of
      every row is the text of Python's builtin `id` function. */
  datatype ProfileRow = ProfileRow(id: string, profile: string, tws: map<string, TwNode>, blocked: bool)

  const BuiltinIdText := "<built-in function id>"

  /** zrange on a key that is not set returns the empty list. */
  function TimewindowsOf(twsOf: map<string, seq<(string, real)>>, profileid: string): seq<(string, real)> {
    if profileid in twsOf then twsOf[profileid] else []
  }

  /** The tree row of one profile id `profile_<ip>`: blocked exactly when its IP is a key of
      the blocked hash (even with an empty list), and then exactly the listed timewindows are
      blocked, those the profile lacks being added without a name. */
  function ProfileRowOf(profileid: string, blocked: map<string, seq<string>>,
                        twsOf: map<string, seq<(string, real)>>, toDate: DateFormat): (r: Result<ProfileRow, Fault>)
    ensures r.Success? <==> SplitPair(profileid, "_").Success? && AllTwWithTs(TimewindowsOf(twsOf, profileid), toDate).Success?
    ensures r.Success? ==> r.value.id == BuiltinIdText && r.value.profile == SplitPair(profileid, "_").value.1
    ensures r.Success? ==> (r.value.blocked <==> r.value.profile in blocked)
    ensures r.Success? ==> forall t :: t in r.value.tws ==>
      (r.value.tws[t].blocked <==> r.value.profile in blocked && t in blocked[r.value.profile])
    ensures r.Success? ==> forall t :: t in AllTwWithTs(TimewindowsOf(twsOf, profileid), toDate).value ==>
      t in r.value.tws && r.value.tws[t].name == AllTwWithTs(TimewindowsOf(twsOf, profileid), toDate).value[t].name
    ensures r.Success? && r.value.profile !in blocked ==>
      r.value.tws == AllTwWithTs(TimewindowsOf(twsOf, profileid), toDate).value
    ensures r.Success? && r.value.profile in blocked ==>
      r.value.tws.Keys == AllTwWithTs(TimewindowsOf(twsOf, profileid), toDate).value.Keys
                          + (set t | t in blocked[r.value.profile])
  {
    var pair :- SplitPair(profileid, "_");
    var ip := pair.1;
    var nodes :- AllTwWithTs(TimewindowsOf(twsOf, profileid), toDate);
    AllTwWithTsNodes(TimewindowsOf(twsOf, profileid), toDate);
    if ip in blocked then Success(ProfileRow(BuiltinIdText, ip, MarkBlocked(nodes, blocked[ip]), true))
    else Success(ProfileRow(BuiltinIdText, ip, nodes, false))
  }

  /** An IP listed in the blocked hash with no timewindows still blocks its profile, but
      blocks none of its timewindows and leaves the tree as the profile has it. */
  lemma EmptyBlockedListBlocksProfileOnly(profileid: string, blocked: map<string, seq<string>>,
                                          twsOf: map<string, seq<(string, real)>>, toDate: DateFormat)
    requires ProfileRowOf(profileid, blocked, twsOf, toDate).Success?
    requires SplitPair(profileid, "_").value.1 in blocked && blocked[SplitPair(profileid, "_").value.1] == []
    ensures var row := ProfileRowOf(profileid, blocked, twsOf, toDate).value;
      && row.blocked
      && row.tws == AllTwWithTs(TimewindowsOf(twsOf, profileid), toDate).value
      && forall t :: t in row.tws ==> !row.tws[t].blocked
  {
    AllTwWithTsNodes(TimewindowsOf(twsOf, profileid), toDate);
  }

  /** A Python loop that appends `f(x)` for each `x` in turn: every result in order, or
      the error of the first `x` that raises. */
  function MapResult<T, U>(xs: seq<T>, f: T -> Result<U, Fault>): (r: Result<seq<U>, Fault>)
    ensures r.Success? ==> |r.value| == |xs| && forall i :: 0 <= i < |xs| ==> f(xs[i]) == Success(r.value[i])
    ensures r.Failure? ==>
      exists i :: 0 <= i < |xs| && f(xs[i]) == Failure(r.error) && forall j :: 0 <= j < i ==> f(xs[j]).Success?
  {
    if |xs| == 0 then Success([])
    else
      var y :- f(xs[0]);
      var ys :- MapResult(xs[1..], f);
      Success([y] + ys)
  }

  /** set_profile_tws: one row per profile, in the order the profiles are read. A profile
      is blocked exactly when its IP has an entry in the blocked hash, and then exactly
      the timewindows listed there are blocked; all other timewindows stay unblocked. */
  function SetProfileTws(blockedHash: Dict<seq<string>>, profiles: seq<string>,
                         twsOf: map<string, seq<(string, real)>>, toDate: DateFormat): (r: Result<seq<ProfileRow>, Fault>)
    ensures BlockedByIp(blockedHash).Failure? ==> r == Failure(ValueError)
    ensures BlockedByIp(blockedHash).Success? ==>
      (r.Success? <==> forall i :: 0 <= i < |profiles| ==>
        && SplitPair(profiles[i], "_").Success?
        && AllTwWithTs(TimewindowsOf(twsOf, profiles[i]), toDate).Success?)
    ensures r.Success? ==> BlockedByIp(blockedHash).Success? && |r.value| == |profiles|
    ensures r.Success? ==> forall i :: 0 <= i < |profiles| ==>
      SplitPair(profiles[i], "_").Success? && r.value[i].profile == SplitPair(profiles[i], "_").value.1
    ensures r.Success? ==> forall i :: 0 <= i < |profiles| ==>
      (r.value[i].blocked <==> r.value[i].profile in BlockedByIp(blockedHash).value)
    ensures r.Success? ==> forall i, t :: 0 <= i < |profiles| && t in r.value[i].tws ==>
      (r.value[i].tws[t].blocked <==>
        r.value[i].profile in BlockedByIp(blockedHash).value && t in BlockedByIp(blockedHash).value[r.value[i].profile])
    ensures r.Success? ==> forall i :: 0 <= i < |profiles| ==>
      ProfileRowOf(profiles[i], BlockedByIp(blockedHash).value, twsOf, toDate) == Success(r.value[i])
  {
    var blocked :- BlockedByIp(blockedHash);
    var rows := MapResult(profiles, profileid => ProfileRowOf(profileid, blocked, twsOf, toDate));
    if rows.Success? then
      RowsOfProfiles(profiles, blocked, twsOf, toDate, rows.value);
      rows
    else rows
  }

  /** Rows that are each the tree row of their profile carry that profile's IP, and are
      blocked, timewindow by timewindow, as the blocked map says. */
  lemma RowsOfProfiles(profiles: seq<string>, blocked: map<string, seq<string>>,
                       twsOf: map<string, seq<(string, real)>>, toDate: DateFormat, rows: seq<ProfileRow>)
    requires |rows| == |profiles|
    requires forall i :: 0 <= i < |profiles| ==> ProfileRowOf(profiles[i], blocked, twsOf, toDate) == Success(rows[i])
    ensures forall i :: 0 <= i < |profiles| ==>
      SplitPair(profiles[i], "_").Success? && rows[i].profile == SplitPair(profiles[i], "_").value.1
    ensures forall i :: 0 <= i < |profiles| ==> (rows[i].blocked <==> rows[i].profile in blocked)
    ensures forall i, t :: 0 <= i < |profiles| && t in rows[i].tws ==>
      (rows[i].tws[t].blocked <==> rows[i].profile in blocked && t in blocked[rows[i].profile])
  {
    forall i | 0 <= i < |profiles|
      ensures SplitPair(profiles[i], "_").Success? && rows[i].profile == SplitPair(profiles[i], "_").value.1
      ensures rows[i].blocked <==> rows[i].profile in blocked
      ensures forall t :: t in rows[i].tws ==>
        (rows[i].tws[t].blocked <==> rows[i].profile in blocked && t in blocked[rows[i].profile])
    {
      assert ProfileRowOf(profiles[i], blocked, twsOf, toDate).value == rows[i];
    }
  }

  // ---------------------------------------------------------------------------
  // set_outtuples / set_intuples and get_ip_info
  // ---------------------------------------------------------------------------

  /** The decoded `IPsInfo` entry of one IP; a field is None when its key is missing.
      The nested objects are None or empty when they are falsy. */
  datatype IpRecord = IpRecord(
    geocountry: Option<string>,
    asn: Option<map<string, string>>,
    reverseDns: Option<string>,
    threatIntel: Option<map<string, string>>,
    virusTotal: Option<map<string, string>>)

  /** A cell of the IP-info table: a bare string, or a string wrapped in a one-element list. */
  datatype Cell = Bare(text: string) | Listed(text: string)

  datatype IpInfo = IpInfo(
    geocountry: Cell, asnorg: Cell, reverseDns: Cell, threatIntel: Cell,
    url: Cell, downFile: Cell, refFile: Cell, comFile: Cell)

  /** The row shown for an IP nothing is known about. */
  const NoInfo := IpInfo(Bare("-"), Bare("-"), Bare("-"), Bare("-"), Bare("-"), Bare("-"), Bare("-"), Bare("-"))

  /** A Python truth test on an optional nested object: present and non-empty. */
  predicate Truthy(o: Option<map<string, string>>) {
    o.Some? && |o.value| > 0
  }

  function Get(m: map<string, string>, key: string): string {
    if key in m then m[key] else "-"
  }

  /** get_ip_info: every field the cache does not supply reads "-"; once the IP is cached,
      the ASN organisation and the threat-intelligence summary come as one-element lists. */
  function GetIpInfo(cache: map<string, IpRecord>, ip: string): (r: IpInfo)
    ensures ip !in cache ==> r == NoInfo
    ensures ip in cache ==> r.asnorg.Listed? && r.threatIntel.Listed?
    ensures ip in cache ==> r.geocountry == Bare(cache[ip].geocountry.GetOr("-"))
    ensures ip in cache ==> r.reverseDns == Bare(cache[ip].reverseDns.GetOr("-"))
    ensures ip in cache && !Truthy(cache[ip].asn) ==> r.asnorg.text == "-"
    ensures ip in cache && Truthy(cache[ip].asn) ==> r.asnorg.text == Get(cache[ip].asn.value, "asnorg")
    ensures ip in cache && !Truthy(cache[ip].threatIntel) ==> r.threatIntel.text == "-"
    ensures ip in cache && Truthy(cache[ip].threatIntel) ==>
      var ti := cache[ip].threatIntel.value;
      r.threatIntel.text == Get(ti, "description") + "," + Get(ti, "threat_level") + " threat level"
    ensures ip in cache && !Truthy(cache[ip].virusTotal) ==>
      r.url == r.downFile == r.refFile == r.comFile == Bare("-")
    ensures ip in cache && Truthy(cache[ip].virusTotal) ==>
      var vt := cache[ip].virusTotal.value;
      && r.url == Bare(Get(vt, "URL")) && r.downFile == Bare(Get(vt, "down_file"))
      && r.refFile == Bare(Get(vt, "ref_file")) && r.comFile == Bare(Get(vt, "com_file"))
  {
    if ip !in cache then NoInfo
    else
      var rec := cache[ip];
      var asnorg := if Truthy(rec.asn) then Get(rec.asn.value, "asnorg") else "-";
      var threat := if Truthy(rec.threatIntel) then
          Get(rec.threatIntel.value, "description") + "," + Get(rec.threatIntel.value, "threat_level") + " threat level"
        else "-";
      var vt := if Truthy(rec.virusTotal) then rec.virusTotal.value else map[];
      IpInfo(Bare(rec.geocountry.GetOr("-")), Listed(asnorg), Bare(rec.reverseDns.GetOr("-")), Listed(threat),
        Bare(Get(vt, "URL")), Bare(Get(vt, "down_file")), Bare(Get(vt, "ref_file")), Bare(Get(vt, "com_file")))
  }

  /** A cached IP whose record holds nothing shows the same texts as an IP nothing is known
      about; only the list wrapping of the ASN and threat cells tells the two apart. */
  lemma EmptyRecordShowsNoInfo(cache: map<string, IpRecord>, ip: string)
    requires ip in cache
    requires cache[ip] == IpRecord(None, None, None, None, None)
    ensures var info := GetIpInfo(cache, ip);
      && info.geocountry == NoInfo.geocountry && info.reverseDns == NoInfo.reverseDns
      && info.asnorg == Listed(NoInfo.asnorg.text) && info.threatIntel == Listed(NoInfo.threatIntel.text)
      && info.url == NoInfo.url && info.downFile == NoInfo.downFile
      && info.refFile == NoInfo.refFile && info.comFile == NoInfo.comFile
  {
  }

  /** A threat-intelligence entry shows its description, a comma and its level, and the
      text ends in " threat level". */
  lemma ThreatSummary(cache: map<string, IpRecord>, ip: string, description: string, level: string)
    requires ip in cache
    requires cache[ip].threatIntel == Some(map["description" := description, "threat_level" := level])
    ensures GetIpInfo(cache, ip).threatIntel == Listed(description + "," + level + " threat level")
  {
    assert Truthy(cache[ip].threatIntel);
  }

  /** One row of the tuple table: the tuple key, its first descriptor and what is known
      about its IP. */
  datatype TupleRow = TupleRow(tuple: string, descriptor: string, info: IpInfo)

  /** A tuple key reads `<ip>-<port>-<protocol>`. */
  predicate WellFormedTupleKey(key: string) {
    |Split(key, "-")| == 3
  }

  function TupleRowOf(key: string, descriptors: seq<string>, cache: map<string, IpRecord>): (r: Result<TupleRow, Fault>)
    ensures r.Success? <==> WellFormedTupleKey(key) && |descriptors| > 0
    ensures r.Success? ==> r.value == TupleRow(key, descriptors[0], GetIpInfo(cache, Split(key, "-")[0]))
    ensures r.Failure? ==> r.error == (if !WellFormedTupleKey(key) then ValueError else IndexError)
  {
    var pieces := Split(key, "-");
    if |pieces| != 3 then Failure(ValueError)
    else if |descriptors| == 0 then Failure(IndexError)
    else Success(TupleRow(key, descriptors[0], GetIpInfo(cache, pieces[0])))
  }

  /** Tuple `i` is the first whose row cannot be built, and `err` is what it raises:
      ValueError when its key does not unpack into three parts, else IndexError for its
      empty descriptor list. */
  predicate FirstBadTuple(entries: seq<(string, seq<string>)>, i: int, err: Fault) {
    && 0 <= i < |entries|
    && !(WellFormedTupleKey(entries[i].0) && |entries[i].1| > 0)
    && err == (if !WellFormedTupleKey(entries[i].0) then ValueError else IndexError)
    && forall j :: 0 <= j < i ==> WellFormedTupleKey(entries[j].0) && |entries[j].1| > 0
  }

  /** The first tuple whose row fails is the first bad tuple, and its row's error is the
      one FirstBadTuple names. */
  lemma FailingRowIsFirstBad(entries: seq<(string, seq<string>)>, cache: map<string, IpRecord>, i: int, err: Fault)
    requires 0 <= i < |entries| && TupleRowOf(entries[i].0, entries[i].1, cache) == Failure(err)
    requires forall j :: 0 <= j < i ==> TupleRowOf(entries[j].0, entries[j].1, cache).Success?
    ensures FirstBadTuple(entries, i, err)
  {
  }

  /** The rows of a decoded tuple map: one per tuple key, in order, each showing the first
      descriptor recorded for it; an unset map shows no rows. */
  function TupleRows(tuples: Option<Dict<seq<string>>>, cache: map<string, IpRecord>): (r: Result<seq<TupleRow>, Fault>)
    ensures tuples.None? ==> r == Success([])
    ensures tuples.Some? ==>
      (r.Success? <==> forall i :: 0 <= i < |tuples.value| ==> WellFormedTupleKey(tuples.value[i].0) && |tuples.value[i].1| > 0)
    ensures r.Success? && tuples.Some? ==> |r.value| == |tuples.value|
    ensures r.Success? && tuples.Some? ==> forall i :: 0 <= i < |tuples.value| ==>
      TupleRowOf(tuples.value[i].0, tuples.value[i].1, cache) == Success(r.value[i])
    ensures r.Failure? ==> tuples.Some? && exists i :: FirstBadTuple(tuples.value, i, r.error)
  {
    if tuples.None? then Success([])
    else
      var entries := tuples.value;
      var rowOf := (e: (string, seq<string>)) => TupleRowOf(e.0, e.1, cache);
      var rows := MapResult(entries, rowOf);
      if rows.Failure? then
        var i :| 0 <= i < |entries| && rowOf(entries[i]) == Failure(rows.error)
          && forall j :: 0 <= j < i ==> rowOf(entries[j]).Success?;
        FailingRowIsFirstBad(entries, cache, i, rows.error);
        rows
      else rows
  }

  /** A tuple key `<ip>-<port>-<protocol>` whose parts hold no `-` gives a row for that
      IP, with the first descriptor. */
  lemma TupleKeyRow(ip: string, port: string, proto: string, descriptors: seq<string>, cache: map<string, IpRecord>)
    requires '-' !in ip && '-' !in port && '-' !in proto
    requires |descriptors| > 0
    ensures TupleRowOf(ip + "-" + port + "-" + proto, descriptors, cache)
         == Success(TupleRow(ip + "-" + port + "-" + proto, descriptors[0], GetIpInfo(cache, ip)))
  {
    var key := ip + "-" + port + "-" + proto;
    assert key == ip + ['-'] + port + ['-'] + proto;
    SplitCons2(ip, port, '-', proto);
    assert Split(proto, "-") == [proto] by {
      ContainsChar(proto, '-');
      assert IndexOf(proto, "-").None?;
    }
  }

  /** The two tuple fields of a timewindow's hash, decoded; None when unset. */
  datatype TupleFields = TupleFields(outTuples: Option<Dict<seq<string>>>, inTuples: Option<Dict<seq<string>>>)

  /** set_outtuples: one row per outgoing tuple, with its first descriptor and what is
      known about the tuple's IP. */
  function SetOutTuples(fields: TupleFields, cache: map<string, IpRecord>): (r: Result<seq<TupleRow>, Fault>)
    ensures fields.outTuples.None? ==> r == Success([])
    ensures fields.outTuples.Some? ==>
      (r.Success? <==> forall i :: 0 <= i < |fields.outTuples.value| ==>
        WellFormedTupleKey(fields.outTuples.value[i].0) && |fields.outTuples.value[i].1| > 0)
    ensures r.Success? && fields.outTuples.Some? ==>
      |r.value| == |fields.outTuples.value|
      && forall i :: 0 <= i < |r.value| ==>
        |fields.outTuples.value[i].1| > 0
        && r.value[i].tuple == fields.outTuples.value[i].0 && r.value[i].descriptor == fields.outTuples.value[i].1[0]
        && WellFormedTupleKey(fields.outTuples.value[i].0)
        && r.value[i].info == GetIpInfo(cache, Split(fields.outTuples.value[i].0, "-")[0])
    ensures r.Failure? ==> fields.outTuples.Some? && exists i :: FirstBadTuple(fields.outTuples.value, i, r.error)
  {
    TupleRows(fields.outTuples, cache)
  }

  /** set_intuples: one row per incoming tuple, with its first descriptor and what is
      known about the tuple's IP. */
  function SetInTuples(fields: TupleFields, cache: map<string, IpRecord>): (r: Result<seq<TupleRow>, Fault>)
    ensures fields.inTuples.None? ==> r == Success([])
    ensures fields.inTuples.Some? ==>
      (r.Success? <==> forall i :: 0 <= i < |fields.inTuples.value| ==>
        WellFormedTupleKey(fields.inTuples.value[i].0) && |fields.inTuples.value[i].1| > 0)
    ensures r.Success? && fields.inTuples.Some? ==>
      |r.value| == |fields.inTuples.value|
      && forall i :: 0 <= i < |r.value| ==>
        |fields.inTuples.value[i].1| > 0
        && r.value[i].tuple == fields.inTuples.value[i].0 && r.value[i].descriptor == fields.inTuples.value[i].1[0]
        && WellFormedTupleKey(fields.inTuples.value[i].0)
        && r.value[i].info == GetIpInfo(cache, Split(fields.inTuples.value[i].0, "-")[0])
    ensures r.Failure? ==> fields.inTuples.Some? && exists i :: FirstBadTuple(fields.inTuples.value, i, r.error)
  {
    TupleRows(fields.inTuples, cache)
  }

  // ---------------------------------------------------------------------------
  // set_timeline
  // ---------------------------------------------------------------------------

  /** A decoded timeline flow. */
  type FlowRecord = map<string, Value>

  /** Python's `str(v)`: a string is itself; other values are rendered by `show`. */
  function Str(v: Value, show: Value -> string): string {
    if v.JString? then v.s else show(v)
  }

  /** The two fixes set_timeline applies to a flow before searching it: a flow `from`
      the profile shows its source address as destination, and the state
      `notestablished` is spelled `not established`. A missing key raises KeyError. */
  function Normalise(flow: FlowRecord): (r: Result<FlowRecord, Fault>)
    ensures r.Failure? <==>
      "preposition" !in flow || "state" !in flow || (flow["preposition"] == JString("from") && "saddr" !in flow)
    ensures r.Failure? ==> r.error.KeyError?
    // the missing key reported is the first one the code reads: preposition, saddr, state
    ensures "preposition" !in flow ==> r == Failure(KeyError("preposition"))
    ensures "preposition" in flow && flow["preposition"] == JString("from") && "saddr" !in flow ==>
      r == Failure(KeyError("saddr"))
    ensures "preposition" in flow && (flow["preposition"] != JString("from") || "saddr" in flow) && "state" !in flow ==>
      r == Failure(KeyError("state"))
    ensures r.Success? ==> "state" in r.value && r.value["state"] != JString("notestablished")
    ensures r.Success? && flow["state"] != JString("notestablished") ==> r.value["state"] == flow["state"]
    ensures r.Success? && flow["state"] == JString("notestablished") ==> r.value["state"] == JString("not established")
    ensures r.Success? && flow["preposition"] == JString("from") ==>
      r.value.Keys == flow.Keys + {"daddr"} && r.value["daddr"] == flow["saddr"]
    ensures r.Success? && flow["preposition"] != JString("from") ==> r.value.Keys == flow.Keys
    ensures r.Success? ==> forall k :: k in flow && k != "daddr" && k != "state" ==> r.value[k] == flow[k]
    ensures r.Success? && flow["preposition"] != JString("from") && "daddr" in flow ==> r.value["daddr"] == flow["daddr"]
  {
    if "preposition" !in flow then Failure(KeyError("preposition"))
    else if flow["preposition"] == JString("from") && "saddr" !in flow then Failure(KeyError("saddr"))
    else
      var moved := if flow["preposition"] == JString("from") then flow["daddr" := flow["saddr"]] else flow;
      if "state" !in moved then Failure(KeyError("state"))
      else if moved["state"] == JString("notestablished") then Success(moved["state" := JString("not established")])
      else Success(moved)
  }

  /** Every flow of the timeline normalised, in order; the first flow that cannot be
      normalised aborts the view. */
  function NormaliseAll(flows: seq<FlowRecord>): (r: Result<seq<FlowRecord>, Fault>)
    ensures r.Success? <==> forall i :: 0 <= i < |flows| ==> Normalise(flows[i]).Success?
    ensures r.Success? ==> |r.value| == |flows|
    ensures r.Success? ==> forall i :: 0 <= i < |flows| ==> Normalise(flows[i]) == Success(r.value[i])
  {
    if |flows| == 0 then Success([])
    else
      var first :- Normalise(flows[0]);
      var rest :- NormaliseAll(flows[1..]);
      assert forall i :: 1 <= i < |flows| ==> flows[i] == flows[1..][i - 1];
      Success([first] + rest)
  }

  /** The search a filter asks for: none (empty after stripping), or a substring search
      that is inverted when the filter holds a `!`. */
  datatype Search = ShowAll | Find(pattern: string, negate: bool)

  function ParseFilter(filter: string): (s: Search)
    ensures s.ShowAll? <==> forall i :: 0 <= i < |filter| ==> IsSpace(filter[i])
    ensures s.Find? ==> '!' !in s.pattern
    ensures s.Find? ==> s.negate == ('!' in Strip(filter)) && s.pattern == Without(Strip(filter), '!')
  {
    var f := Strip(filter);
    if |f| == 0 then ShowAll
    else if Contains(f, "!") then
      RemoveChar(f, '!');
      Find(Remove(f, "!"), true)
    else
      ContainsChar(f, '!');
      WithoutAbsent(f, '!');
      Find(f, false)
  }

  /** Some value of the flow, as a string, contains the pattern, ignoring case. */
  predicate Matches(flow: FlowRecord, pattern: string, show: Value -> string) {
    exists k :: k in flow && Contains(Lower(Str(flow[k], show)), Lower(pattern))
  }

  predicate Keeps(search: Search, flow: FlowRecord, show: Value -> string) {
    match search
    case ShowAll => true
    case Find(pattern, negate) => Matches(flow, pattern, show) != negate
  }

  /** `xs` is `ys` with some elements left out, order kept. */
  predicate IsSubsequence<T(==)>(xs: seq<T>, ys: seq<T>)
    decreases |ys|
  {
    if |xs| == 0 then true
    else if |ys| == 0 then false
    else (xs[0] == ys[0] && IsSubsequence(xs[1..], ys[1..])) || IsSubsequence(xs, ys[1..])
  }

  /** The flows the search keeps, in timeline order. */
  function Select(flows: seq<FlowRecord>, search: Search, show: Value -> string): (r: seq<FlowRecord>)
    ensures IsSubsequence(r, flows)
    ensures forall x :: x in r ==> Keeps(search, x, show)
    ensures forall x :: x in flows && Keeps(search, x, show) ==> x in r
  {
    if |flows| == 0 then []
    else
      var rest := Select(flows[1..], search, show);
      if Keeps(search, flows[0], show) then
        assert ([flows[0]] + rest)[1..] == rest;
        [flows[0]] + rest
      else rest
  }

  /** set_timeline: the normalised timeline, filtered by the search filter. */
  function SetTimeline(timeline: seq<FlowRecord>, filter: string, show: Value -> string): (r: Result<seq<FlowRecord>, Fault>)
    ensures r.Success? <==> NormaliseAll(timeline).Success?
    ensures r.Success? ==> IsSubsequence(r.value, NormaliseAll(timeline).value)
    ensures r.Success? ==> forall x :: x in r.value ==> Keeps(ParseFilter(filter), x, show)
    ensures r.Success? ==> forall x :: x in NormaliseAll(timeline).value && Keeps(ParseFilter(filter), x, show) ==>
      x in r.value
  {
    var flows :- NormaliseAll(timeline);
    Success(Select(flows, ParseFilter(filter), show))
  }

  /** With no search every flow of the timeline is kept, in order. */
  lemma {:induction false} SelectAll(flows: seq<FlowRecord>, show: Value -> string)
    ensures Select(flows, ShowAll, show) == flows
  {
    if |flows| > 0 {
      SelectAll(flows[1..], show);
    }
  }

  /** An empty or all-blank filter shows the whole normalised timeline. */
  lemma BlankFilterShowsAll(timeline: seq<FlowRecord>, filter: string, show: Value -> string)
    requires forall i :: 0 <= i < |filter| ==> IsSpace(filter[i])
    ensures SetTimeline(timeline, filter, show) == NormaliseAll(timeline)
  {
    if NormaliseAll(timeline).Success? {
      SelectAll(NormaliseAll(timeline).value, show);
    }
  }

  /** A search and its inversion split the flows between them: together they hold every
      flow exactly as often as the timeline does. */
  lemma {:induction false} SelectPartition(flows: seq<FlowRecord>, pattern: string, show: Value -> string)
    ensures multiset(Select(flows, Find(pattern, false), show)) + multiset(Select(flows, Find(pattern, true), show))
         == multiset(flows)
  {
    if |flows| > 0 {
      var x, rest := flows[0], flows[1..];
      var kept, dropped := Select(rest, Find(pattern, false), show), Select(rest, Find(pattern, true), show);
      var found, inverted := Select(flows, Find(pattern, false), show), Select(flows, Find(pattern, true), show);
      SelectPartition(rest, pattern, show);
      assert multiset(flows) == multiset([x]) + multiset(rest) by {
        assert flows == [x] + rest;
      }
      if Matches(x, pattern, show) {
        assert found == [x] + kept && inverted == dropped;
        assert multiset(found) == multiset([x]) + multiset(kept);
      } else {
        assert found == kept && inverted == [x] + dropped;
        assert multiset(inverted) == multiset([x]) + multiset(dropped);
      }
    }
  }

  /** A filter with no blank at either end and no `!` searches for itself. */
  lemma ParsePlainFilter(f: string)
    requires |f| > 0 && !IsSpace(f[0]) && !IsSpace(f[|f| - 1])
    requires '!' !in f
    ensures ParseFilter(f) == Find(f, false)
  {
    StripUnchanged(f);
    ContainsChar(f, '!');
  }

  /** Prefixing such a filter with `!` inverts the same search. */
  lemma ParseNegatedFilter(f: string)
    requires |f| > 0 && !IsSpace(f[0]) && !IsSpace(f[|f| - 1])
    requires '!' !in f
    ensures ParseFilter("!" + f) == Find(f, true)
  {
    var neg := "!" + f;
    StripUnchanged(neg);
    ContainsChar(neg, '!');
    RemoveChar(neg, '!');
    assert Without(neg, '!') == f by {
      assert neg[1..] == f;
      WithoutAbsent(f, '!');
    }
  }

  /** For a filter `f` as above, the filters `f` and `!f` split the timeline: the first
      keeps exactly the matching flows, the second exactly the others. */
  lemma NegationPartitions(timeline: seq<FlowRecord>, f: string, show: Value -> string)
    requires |f| > 0 && !IsSpace(f[0]) && !IsSpace(f[|f| - 1])
    requires '!' !in f
    requires NormaliseAll(timeline).Success?
    ensures var flows := NormaliseAll(timeline).value;
      var kept, dropped := SetTimeline(timeline, f, show).value, SetTimeline(timeline, "!" + f, show).value;
      && multiset(kept) + multiset(dropped) == multiset(flows)
      && (forall x :: x in kept ==> Matches(x, f, show))
      && (forall x :: x in dropped ==> !Matches(x, f, show))
  {
    ParsePlainFilter(f);
    ParseNegatedFilter(f);
    SelectPartition(NormaliseAll(timeline).value, f, show);
  }

  // ---------------------------------------------------------------------------
  // set_alerts and set_evidence
  // ---------------------------------------------------------------------------

  /** A decoded piece of evidence (or alert description): its JSON fields. */
  type EvidenceRecord = map<string, Value>

  /** The `alerts` entry of a profile, decoded: per timewindow, each alert id with the
      ids of the evidence that raised it, in insertion order. None when unset. */
  type AlertsOfProfile = Option<map<string, Dict<seq<string>>>>

  /** The `evidence<profile>` entry of a timewindow, decoded. None when unset. */
  type EvidenceOfTw = Option<map<string, EvidenceRecord>>

  /** One row of the alerts table. */
  datatype AlertRow = AlertRow(alert: string, alertId: string, profileid: string, timewindow: string, evidenceCount: nat)

  /** The start of an alert as displayed: a string is shown as it is; a number (a Python
      bool counts as 0 or 1) is converted to a date with microseconds; anything else
      makes the conversion raise TypeError. */
  function StartTime(stime: Value, toDate: DateFormat): (r: Result<string, Fault>)
    ensures r.Failure? <==> stime.JNull? || stime.JArray? || stime.JObject?
    ensures r.Failure? ==> r.error == TypeError
    ensures stime.JString? ==> r == Success(stime.s)
    ensures stime.JInt? ==> r == Success(toDate(stime.i as real, true))
    ensures stime.JFloat? ==> r == Success(toDate(stime.f, true))
    ensures stime.JBool? ==> r == Success(toDate(if stime.b then 1.0 else 0.0, true))
  {
    match stime
    case JString(s) => Success(s)
    case JInt(i) => Success(toDate(i as real, true))
    case JFloat(f) => Success(toDate(f, true))
    case JBool(b) => Success(toDate(if b then 1.0 else 0.0, true))
    case _ => Failure(TypeError)
  }

  /** `s.split(sep)[1]`: the piece after the first separator, or IndexError. */
  function SecondPiece(s: string, sep: string): (r: Result<string, Fault>)
    requires |sep| > 0
    ensures r.Failure? <==> !Contains(s, sep)
    ensures r.Failure? ==> r.error == IndexError
    ensures r.Success? ==> r.value == Split(s, sep)[1]
    ensures r.Success? ==> !Contains(r.value, sep)
  {
    var pieces := Split(s, sep);
    if |pieces| < 2 then Failure(IndexError) else Success(pieces[1])
  }

  /** The IP of a profile id `<word>_<ip>`, where neither part holds `_`, is `<ip>`; extra
      `_`-separated parts after it are ignored. */
  lemma SecondPieceOfProfile(word: string, ip: string, rest: string)
    requires '_' !in word && '_' !in ip
    ensures SecondPiece(word + "_" + ip, "_") == Success(ip)
    ensures SecondPiece(word + "_" + ip + "_" + rest, "_") == Success(ip)
  {
    SplitCons(word, '_', ip);
    ContainsChar(ip, '_');
    assert Split(ip, "_") == [ip];
    var long := word + "_" + ip + "_" + rest;
    assert long == word + ['_'] + (ip + "_" + rest);
    SplitCons(word, '_', ip + "_" + rest);
    SplitCons(ip, '_', rest);
  }

  /** The row of one alert of the timewindow: its start taken from the description stored
      under the alert id, the profile's IP, the timewindow's display name and the number
      of evidence ids. */
  function AlertRowOf(alertId: string, evidenceIds: seq<string>, profile: string, timewindow: string,
                      evidence: map<string, EvidenceRecord>, tree: map<string, TwNode>, toDate: DateFormat): (r: Result<AlertRow, Fault>)
    ensures alertId !in evidence ==> r == Failure(KeyError(alertId))
    ensures alertId in evidence && "stime" !in evidence[alertId] ==> r == Failure(KeyError("stime"))
    ensures alertId in evidence && "stime" in evidence[alertId] ==>
      var start := StartTime(evidence[alertId]["stime"], toDate);
      && (start.Failure? ==> r == Failure(TypeError))
      && (start.Success? && !Contains(profile, "_") ==> r == Failure(IndexError))
      && (start.Success? && Contains(profile, "_") && (timewindow !in tree || tree[timewindow].name.None?) ==>
            r == Failure(KeyError("name")))
      && (r.Success? <==> start.Success? && Contains(profile, "_") && timewindow in tree && tree[timewindow].name.Some?)
    ensures r.Success? ==> r.value.alertId == alertId && r.value.evidenceCount == |evidenceIds|
    ensures r.Success? ==> StartTime(evidence[alertId]["stime"], toDate) == Success(r.value.alert)
    ensures r.Success? ==> SecondPiece(profile, "_") == Success(r.value.profileid)
    ensures r.Success? ==> timewindow in tree && tree[timewindow].name == Some(r.value.timewindow)
  {
    if alertId !in evidence then Failure(KeyError(alertId))
    else if "stime" !in evidence[alertId] then Failure(KeyError("stime"))
    else
      var alert :- StartTime(evidence[alertId]["stime"], toDate);
      var ip :- SecondPiece(profile, "_");
      if timewindow !in tree || tree[timewindow].name.None? then Failure(KeyError("name"))
      else Success(AlertRow(alert, alertId, ip, timewindow := tree[timewindow].name.value, evidenceCount := |evidenceIds|))
  }

  /** set_alerts: nothing when the profile has no alerts; otherwise the timewindow must be
      listed, the profile's timewindows must be nameable and its evidence must be set,
      and then there is one row per alert, in order. */
  function SetAlerts(profile: string, timewindow: string, alerts: AlertsOfProfile, evidence: EvidenceOfTw,
                     tws: seq<(string, real)>, toDate: DateFormat): (r: Result<seq<AlertRow>, Fault>)
    ensures alerts.None? ==> r == Success([])
    ensures alerts.Some? && timewindow !in alerts.value ==> r == Failure(KeyError(timewindow))
    ensures alerts.Some? && timewindow in alerts.value && AllTwWithTs(tws, toDate).Failure? ==> r == Failure(IndexError)
    ensures alerts.Some? && timewindow in alerts.value && AllTwWithTs(tws, toDate).Success? && evidence.None? ==>
      r == Failure(TypeError)
    ensures alerts.Some? && timewindow in alerts.value && AllTwWithTs(tws, toDate).Success? && evidence.Some? ==>
      var entries := alerts.value[timewindow];
      (r.Success? <==> forall i :: 0 <= i < |entries| ==>
        AlertRowOf(entries[i].0, entries[i].1, profile, timewindow, evidence.value, AllTwWithTs(tws, toDate).value, toDate).Success?)
    ensures r.Success? && alerts.Some? ==> var entries := alerts.value[timewindow];
      && evidence.Some? && AllTwWithTs(tws, toDate).Success? && |r.value| == |entries|
      && forall i :: 0 <= i < |entries| ==>
        && timewindow in AllTwWithTs(tws, toDate).value
        && r.value[i].alertId == entries[i].0
        && r.value[i].evidenceCount == |entries[i].1|
        && AllTwWithTs(tws, toDate).value[timewindow].name == Some(r.value[i].timewindow)
        && SecondPiece(profile, "_") == Success(r.value[i].profileid)
        && entries[i].0 in evidence.value
        && "stime" in evidence.value[entries[i].0]
        && StartTime(evidence.value[entries[i].0]["stime"], toDate) == Success(r.value[i].alert)
  {
    if alerts.None? then Success([])
    else if timewindow !in alerts.value then Failure(KeyError(timewindow))
    else
      var entries := alerts.value[timewindow];
      var tree :- AllTwWithTs(tws, toDate);
      if evidence.None? then Failure(TypeError)
      else
        MapResult(entries, (e: (string, seq<string>)) =>
          AlertRowOf(e.0, e.1, profile, timewindow, evidence.value, tree, toDate))
  }

  /** The `source_target_tag` of a piece of evidence defaults to "-"; every other field
      is shown as stored. */
  function WithTag(record: EvidenceRecord): (r: EvidenceRecord)
    ensures r.Keys == record.Keys + {"source_target_tag"}
    ensures forall k :: k in record ==> r[k] == record[k]
    ensures "source_target_tag" !in record ==> r["source_target_tag"] == JString("-")
  {
    if "source_target_tag" in record then record else record["source_target_tag" := JString("-")]
  }

  /** set_evidence: nothing when the profile has no alerts; otherwise the timewindow and
      the alert must be listed and the evidence set, and then each evidence id of the
      alert, in order, gives its stored evidence with the tag defaulted. */
  function SetEvidence(timewindow: string, alertId: string, alerts: AlertsOfProfile, evidence: EvidenceOfTw)
    : (r: Result<seq<EvidenceRecord>, Fault>)
    ensures alerts.None? ==> r == Success([])
    ensures alerts.Some? && timewindow !in alerts.value ==> r == Failure(KeyError(timewindow))
    ensures alerts.Some? && timewindow in alerts.value && Lookup(alerts.value[timewindow], alertId).None? ==>
      r == Failure(KeyError(alertId))
    ensures alerts.Some? && timewindow in alerts.value && Lookup(alerts.value[timewindow], alertId).Some? ==>
      var ids := Lookup(alerts.value[timewindow], alertId).value;
      && (evidence.None? ==> r == Failure(TypeError))
      && (evidence.Some? ==> (r.Success? <==> forall i :: 0 <= i < |ids| ==> ids[i] in evidence.value))
      && (evidence.Some? && r.Failure? ==> r.error.KeyError? && r.error.key !in evidence.value)
      && (r.Success? ==>
            && evidence.Some?
            && |r.value| == |ids|
            && forall i :: 0 <= i < |ids| ==> ids[i] in evidence.value && r.value[i] == WithTag(evidence.value[ids[i]]))
  {
    if alerts.None? then Success([])
    else if timewindow !in alerts.value then Failure(KeyError(timewindow))
    else
      match Lookup(alerts.value[timewindow], alertId)
      case None => Failure(KeyError(alertId))
      case Some(ids) =>
        if evidence.None? then Failure(TypeError)
        else
          var stored := evidence.value;
          var fetch := (id: string) => if id in stored then Success(WithTag(stored[id])) else Failure(KeyError(id));
          assert ids == Lookup(alerts.value[timewindow], alertId).value;
          var rows := MapResult(ids, fetch);
          assert rows.Failure? ==> exists i :: 0 <= i < |ids| && ids[i] !in stored by {
            if rows.Failure? {
              var i :| 0 <= i < |ids| && fetch(ids[i]) == Failure(rows.error);
              assert ids[i] !in stored;
            }
          }
          assert rows.Success? ==> forall i :: 0 <= i < |ids| ==> ids[i] in stored by {
            if rows.Success? {
              forall i | 0 <= i < |ids| ensures ids[i] in stored {
                assert fetch(ids[i]) == Success(rows.value[i]);
              }
            }
          }
          rows
  }

  /** The count in a row of the alerts table is the length of the evidence table that
      pressing the row opens, once the evidence of that alert is all stored. */
  lemma AlertCountIsEvidenceRows(profile: string, timewindow: string, alerts: AlertsOfProfile, evidence: EvidenceOfTw,
                                 tws: seq<(string, real)>, toDate: DateFormat, i: nat)
    requires alerts.Some? && timewindow in alerts.value
    requires SetAlerts(profile, timewindow, alerts, evidence, tws, toDate).Success?
    requires i < |SetAlerts(profile, timewindow, alerts, evidence, tws, toDate).value|
    requires evidence.Some? && forall id :: id in alerts.value[timewindow][i].1 ==> id in evidence.value
    ensures var row := SetAlerts(profile, timewindow, alerts, evidence, tws, toDate).value[i];
      && SetEvidence(timewindow, row.alertId, alerts, evidence).Success?
      && |SetEvidence(timewindow, row.alertId, alerts, evidence).value| == row.evidenceCount
  {
    var entries := alerts.value[timewindow];
    LookupEntry(entries, i);
  }
}

=== FILE: json.dfy ===
/** Decoded JSON, as `json.loads` hands it to the dashboard and the detector modules. */
module Json {
  import opened Wrappers

  /** A decoded JSON value. As with `json.loads`, integers and floats stay apart (`str`
      renders them differently). Objects whose key order does not matter are maps. */
  datatype Value =
    | JNull
    | JBool(b: bool)
    | JInt(i: int)        // a number written without fraction or exponent
    | JFloat(f: real)     // any other number
    | JString(s: string)
    | JArray(items: seq<Value>)
    | JObject(fields: map<string, Value>)

  /** No key appears twice: true of every dict `json.loads` builds. */
  predicate UniqueKeys<V>(entries: seq<(string, V)>) {
    forall i, j :: 0 <= i < j < |entries| ==> entries[i].0 != entries[j].0
  }

  /** A decoded JSON object whose iteration order matters: its entries in insertion order. */
  type Dict<V> = entries: seq<(string, V)> | UniqueKeys(entries) witness []

  /** `d.get(key)`: the value stored under `key`, if any. */
  function Lookup<V>(d: seq<(string, V)>, key: string): (r: Option<V>)
    ensures r.Some? ==> exists i :: 0 <= i < |d| && d[i] == (key, r.value)
    ensures r.None? <==> forall i :: 0 <= i < |d| ==> d[i].0 != key
  {
    if |d| == 0 then None
    else if d[0].0 == key then Some(d[0].1)
    else Lookup(d[1..], key)
  }

  /** In a dict every key finds the value stored beside it. */
  lemma {:induction false} LookupEntry<V>(d: Dict<V>, i: nat)
    requires i < |d|
    ensures Lookup(d, d[i].0) == Some(d[i].1)
  {
    if i > 0 {
      assert d[0].0 != d[i].0;
      var rest: Dict<V> := d[1..];
      LookupEntry(rest, i - 1);
    }
  }
}

=== FILE: notice.dfy ===
/** The Zeek notice analyzer of the flow-alerts module: for every message published on
    `new_notice` it looks at the `note` Zeek attached to the flow and records evidence of a
    vertical port scan, a horizontal port scan or password guessing. The topic check and
    the conversion of the decoded flow into a flow object are supplied by the caller, and
    the evidence it would hand to the evidence sinks is returned instead. */
module Notice {
  import opened Wrappers
  import opened Strings
  import Json

  /** A flow object as the flow converter builds it; the analyzer reads only `note`. */
  datatype Flow = Flow(
    saddr: string, daddr: string, sport: int, dport: int, proto: string,
    ts: real, dur: real, state: string, note: string)

  /** The decoded `data` field of a bus message. */
  datatype Payload = Payload(profileid: string, twid: string, flow: map<string, Json.Value>)

  /** A message read from the bus: the channel it came on and its decoded payload. */
  datatype Message = Message(channel: string, data: Payload)

  datatype EvidenceKind = VerticalPortscan | HorizontalPortscan | PasswordGuessing

  /** One call into the evidence sinks: the kind, the owning profile and timewindow,
      the flow, and the detector credited with it (the `by` argument). */
  datatype Evidence = Evidence(kind: EvidenceKind, profileid: string, twid: string, flow: Flow, detectedBy: Option<string>)

  /** What `analyze` returns, together with the evidence it recorded on the way. */
  datatype Analysis = Analysis(handled: bool, emitted: seq<Evidence>)

  const Topic := "new_notice"

  /** The substring of the Zeek note that reveals each kind of evidence. */
  function Marker(kind: EvidenceKind): string {
    match kind
    case VerticalPortscan => "Port_Scan"
    case HorizontalPortscan => "Address_Scan"
    case PasswordGuessing => "Password_Guessing"
  }

  /** The order in which `analyze` runs the three checks. */
  function Rank(kind: EvidenceKind): nat {
    match kind
    case VerticalPortscan => 0
    case HorizontalPortscan => 1
    case PasswordGuessing => 2
  }

  /** check_vertical_portscan: evidence exactly when the note mentions `Port_Scan`. */
  function CheckVerticalPortscan(profileid: string, twid: string, flow: Flow): (r: seq<Evidence>)
    ensures |r| <= 1
    ensures |r| == 1 <==> Contains(flow.note, Marker(VerticalPortscan))
    ensures |r| == 1 ==> r[0] == Evidence(VerticalPortscan, profileid, twid, flow, None)
  {
    if !Contains(flow.note, "Port_Scan") then []
    else [Evidence(VerticalPortscan, profileid, twid, flow, None)]
  }

  /** check_horizontal_portscan: evidence exactly when the note mentions `Address_Scan`. */
  function CheckHorizontalPortscan(flow: Flow, profileid: string, twid: string): (r: seq<Evidence>)
    ensures |r| <= 1
    ensures |r| == 1 <==> Contains(flow.note, Marker(HorizontalPortscan))
    ensures |r| == 1 ==> r[0] == Evidence(HorizontalPortscan, profileid, twid, flow, None)
  {
    if !Contains(flow.note, "Address_Scan") then []
    else [Evidence(HorizontalPortscan, profileid, twid, flow, None)]
  }

  /** check_password_guessing: evidence credited to Zeek exactly when the note mentions
      `Password_Guessing`. */
  function CheckPasswordGuessing(profileid: string, twid: string, flow: Flow): (r: seq<Evidence>)
    ensures |r| <= 1
    ensures |r| == 1 <==> Contains(flow.note, Marker(PasswordGuessing))
    ensures |r| == 1 ==> r[0] == Evidence(PasswordGuessing, profileid, twid, flow, Some("Zeek"))
  {
    if !Contains(flow.note, "Password_Guessing") then []
    else [Evidence(PasswordGuessing, profileid, twid, flow, Some("Zeek"))]
  }

  /** analyze: a message for another topic is declined with no evidence; a `new_notice`
      message is always reported handled, with at most one piece of evidence per kind,
      in check order, all owned by the payload's profile and timewindow. */
  function Analyze(msg: Message, intendedFor: (Message, string) -> bool, toFlow: map<string, Json.Value> -> Flow): (r: Analysis)
    ensures r.handled == intendedFor(msg, Topic)
    ensures !r.handled ==> r.emitted == []
    ensures |r.emitted| <= 3
    ensures forall i, j :: 0 <= i < j < |r.emitted| ==> Rank(r.emitted[i].kind) < Rank(r.emitted[j].kind)
    ensures forall e :: e in r.emitted ==>
      e.profileid == msg.data.profileid && e.twid == msg.data.twid && e.flow == toFlow(msg.data.flow)
    ensures forall e :: e in r.emitted ==> (e.detectedBy == Some("Zeek") <==> e.kind == PasswordGuessing)
  {
    if !intendedFor(msg, Topic) then Analysis(false, [])
    else
      var profileid, twid := msg.data.profileid, msg.data.twid;
      var flow := toFlow(msg.data.flow);
      var v := CheckVerticalPortscan(profileid, twid, flow);
      var h := CheckHorizontalPortscan(flow, profileid, twid);
      var p := CheckPasswordGuessing(profileid, twid, flow);
      CheckOrder(v, h, p);
      Analysis(true, v + h + p)
  }

  /** At most one piece of evidence per check, each of the check's own kind, keeps the
      concatenation in check order. */
  lemma CheckOrder(v: seq<Evidence>, h: seq<Evidence>, p: seq<Evidence>)
    requires |v| <= 1 && |h| <= 1 && |p| <= 1
    requires forall e :: e in v ==> e.kind == VerticalPortscan
    requires forall e :: e in h ==> e.kind == HorizontalPortscan
    requires forall e :: e in p ==> e.kind == PasswordGuessing
    ensures forall i, j :: 0 <= i < j < |v + h + p| ==> Rank((v + h + p)[i].kind) < Rank((v + h + p)[j].kind)
  {
    var s := v + h + p;
    forall i, j | 0 <= i < j < |s| ensures Rank(s[i].kind) < Rank(s[j].kind) {
      if i < |v| {
        assert s[i] == v[i];
        if j < |v| + |h| { assert s[j] == h[j - |v|]; } else { assert s[j] == p[j - |v| - |h|]; }
      } else {
        assert s[i] == h[i - |v|];
        assert s[j] == p[j - |v| - |h|];
      }
    }
  }

  /** `analyze` recorded evidence of this kind. */
  predicate Emits(r: Analysis, kind: EvidenceKind) {
    exists e :: e in r.emitted && e.kind == kind
  }

  /** Each kind of evidence is recorded exactly when the message is for `new_notice` and
      the flow's note contains that kind's marker, independently of the other kinds. */
  lemma EmitsIffMarked(msg: Message, intendedFor: (Message, string) -> bool, toFlow: map<string, Json.Value> -> Flow, kind: EvidenceKind)
    ensures Emits(Analyze(msg, intendedFor, toFlow), kind)
        <==> intendedFor(msg, Topic) && Contains(toFlow(msg.data.flow).note, Marker(kind))
  {
    var r := Analyze(msg, intendedFor, toFlow);
    if intendedFor(msg, Topic) {
      var profileid, twid, flow := msg.data.profileid, msg.data.twid, toFlow(msg.data.flow);
      var v := CheckVerticalPortscan(profileid, twid, flow);
      var h := CheckHorizontalPortscan(flow, profileid, twid);
      var p := CheckPasswordGuessing(profileid, twid, flow);
      assert r.emitted == v + h + p;
      if Emits(r, kind) {
        var e :| e in r.emitted && e.kind == kind;
        assert e in v || e in h || e in p;
      }
      if Contains(flow.note, Marker(kind)) {
        match kind
        case VerticalPortscan => assert v[0] in r.emitted;
        case HorizontalPortscan => assert h[0] in r.emitted;
        case PasswordGuessing => assert p[0] in r.emitted;
      }
    }
  }

  /** No marker occurs inside another. */
  lemma MarkersExclusive(a: EvidenceKind, b: EvidenceKind)
    requires a != b
    ensures !Contains(Marker(a), Marker(b))
  {
    match (a, b)
    case (VerticalPortscan, HorizontalPortscan) =>
      assert 'A' !in Marker(a);
      MissingCharNotContained(Marker(a), Marker(b), 'A');
    case (VerticalPortscan, PasswordGuessing) =>
      assert 'w' !in Marker(a);
      MissingCharNotContained(Marker(a), Marker(b), 'w');
    case (HorizontalPortscan, _) =>
      assert 'P' !in Marker(a);
      MissingCharNotContained(Marker(a), Marker(b), 'P');
    case (PasswordGuessing, VerticalPortscan) =>
      assert 'S' !in Marker(a);
      MissingCharNotContained(Marker(a), Marker(b), 'S');
    case (PasswordGuessing, HorizontalPortscan) =>
      assert 'A' !in Marker(a);
      MissingCharNotContained(Marker(a), Marker(b), 'A');
  }

  /** A flow whose note is exactly one marker (`Port_Scan`, say) yields one piece of
      evidence, of that kind only, for the payload's profile and timewindow; only password
      guessing is credited to Zeek. */
  lemma SingleMarkerNote(msg: Message, intendedFor: (Message, string) -> bool, toFlow: map<string, Json.Value> -> Flow,
                         kind: EvidenceKind)
    requires intendedFor(msg, Topic)
    requires toFlow(msg.data.flow).note == Marker(kind)
    ensures Analyze(msg, intendedFor, toFlow).emitted
         == [Evidence(kind, msg.data.profileid, msg.data.twid, toFlow(msg.data.flow),
                      if kind == PasswordGuessing then Some("Zeek") else None)]
  {
    var note := toFlow(msg.data.flow).note;
    ContainsSelf(note);
    forall other | other != kind ensures !Contains(note, Marker(other)) {
      MarkersExclusive(kind, other);
    }
    assert !Contains(note, Marker(VerticalPortscan)) <==> kind != VerticalPortscan;
    assert !Contains(note, Marker(HorizontalPortscan)) <==> kind != HorizontalPortscan;
    assert !Contains(note, Marker(PasswordGuessing)) <==> kind != PasswordGuessing;
  }
}

=== FILE: output_process.dfy ===
/** The output process of Slips: every module sends it `level|sender|msg` lines over
    a queue, and it decides from the verbosity and debug digits of the level what is
    printed, what goes to slips.log and what goes to errors.log. The terminal, the log
    files, the clock and the database bus are replaced by the effects each line causes. */
module OutputProcess {
  import opened Wrappers
  import opened Strings

  /** The settings the process runs with: the `-v` verbosity, the `-e` debug level, and
      whether `-D` (daemon mode) is among the command-line arguments. */
  datatype Config = Config(verbose: int, debug: int, daemon: bool)

  /** One log-file line: `sender` followed by `msg` (the sink prefixes the current date). */
  datatype Entry = Entry(sender: string, msg: string)

  /** What handling a line does to the outside world, in the order it happens. */
  datatype Effect =
    | Print(text: string)                     // a line on standard output
    | SlipsLog(entry: Entry)                  // a line appended to slips.log
    | ErrorLog(entry: Entry)                  // a line appended to errors.log
    | Publish(channel: string, data: string)  // a message published on the database bus

  /** A queue line split into its level, its bracketed sender and its message. */
  datatype Parsed = Parsed(level: string, sender: string, msg: string)

  /** Exit status when the level is not an integer. */
  const BadLevelExit: int := -1
  /** Exit status when the line has no sender field. */
  const MalformedLineExit: int := 1

  const Separator: char := '|'

  // ---------------------------------------------------------------------------
  // process_line
  // ---------------------------------------------------------------------------

  /** A level the output process accepts as it is: at least two characters whose
      integer value lies in [0, 100). */
  predicate ValidLevel(level: string) {
    |level| >= 2 && ParseInt(level).Some? && 0 <= ParseInt(level).value < 100
  }

  /** The first field of a line as process_line leaves it: out-of-range or one-character
      levels become "00", and a level that is no integer ends the process. */
  function NormaliseLevel(level: string): (r: Result<string, int>)
    ensures r.Failure? <==> ParseInt(level).None?
    ensures r.Failure? ==> r.error == BadLevelExit
    ensures r.Success? ==> ValidLevel(r.value)
    ensures r.Success? && ValidLevel(level) ==> r.value == level
    ensures r.Success? && !ValidLevel(level) ==> r.value == "00"
  {
    match ParseInt(level)
    case None => Failure(BadLevelExit)
    case Some(v) =>
      if v < 0 || v >= 100 || |level| < 2 then
        assert NumeralValue("00") == 0 by {
          assert "00"[..1] == "0";
          assert "0"[..0] == "";
        }
        Success("00")
      else Success(level)
  }

  /** A concatenation of separator-free pieces holds no separator. */
  lemma {:induction false} ConcatAvoids(parts: seq<string>, c: char)
    requires forall k :: 0 <= k < |parts| ==> c !in parts[k]
    ensures c !in Concat(parts)
  {
    if |parts| > 1 {
      ConcatAvoids(parts[1..], c);
      assert Concat(parts) == parts[0] + Concat(parts[1..]);
    }
  }

  /** process_line: the level, `[sender] ` and the message, or the exit status the
      process terminates with. Every `|` past the second field is dropped from the
      message. */
  function ProcessLine(line: string): (r: Result<Parsed, int>)
    ensures var fields := Split(line, [Separator]);
      && (r.Failure? <==> ParseInt(fields[0]).None? || |fields| < 2)
      && (r.Failure? && ParseInt(fields[0]).None? ==> r.error == BadLevelExit)
      && (r.Failure? && ParseInt(fields[0]).Some? ==> r.error == MalformedLineExit)
    ensures r.Success? ==> ValidLevel(r.value.level) && Separator !in r.value.msg
  {
    var fields := Split(line, [Separator]);
    match NormaliseLevel(fields[0])
    case Failure(code) => Failure(code)
    case Success(level) =>
      if |fields| < 2 then Failure(MalformedLineExit)
      else
        var msg := Concat(fields[2..]);
        assert Separator !in msg by {
          forall k | 0 <= k < |fields[2..]|
            ensures Separator !in fields[2..][k]
          {
            ContainsChar(fields[k + 2], Separator);
          }
          ConcatAvoids(fields[2..], Separator);
        }
        Success(Parsed(level, "[" + fields[1] + "] ", msg))
  }

  /** A well-formed line `level|sender|msg` yields the normalised level, the sender in
      brackets followed by a space, and the message with its own `|` characters removed. */
  lemma ProcessWellFormedLine(level: string, sender: string, msg: string)
    requires Separator !in level && Separator !in sender
    requires ParseInt(level).Some?
    ensures ProcessLine(level + [Separator] + sender + [Separator] + msg)
         == Success(Parsed(NormaliseLevel(level).value, "[" + sender + "] ", Without(msg, Separator)))
  {
    var line := level + [Separator] + sender + [Separator] + msg;
    var fields := Split(line, [Separator]);
    FieldsOfWellFormedLine(level, sender, msg);
    RemoveChar(msg, Separator);
    assert Concat(fields[2..]) == Without(msg, Separator);
  }

  /** The fields of `level|sender|msg`: the level, the sender, then the pieces of `msg`. */
  lemma FieldsOfWellFormedLine(level: string, sender: string, msg: string)
    requires Separator !in level && Separator !in sender
    ensures var fields := Split(level + [Separator] + sender + [Separator] + msg, [Separator]);
      && |fields| >= 2 && fields[0] == level && fields[1] == sender
      && fields[2..] == Split(msg, [Separator])
  {
    SplitCons2(level, sender, Separator, msg);
    var fields := Split(level + [Separator] + sender + [Separator] + msg, [Separator]);
    assert fields[2..] == Split(msg, [Separator]);
  }

  /** A line with only a level and a sender yields the normalised level, the sender in
      brackets followed by a space, and the empty message. */
  lemma ProcessTwoFieldLine(level: string, sender: string)
    requires Separator !in level && Separator !in sender
    requires ParseInt(level).Some?
    ensures ProcessLine(level + [Separator] + sender)
         == Success(Parsed(NormaliseLevel(level).value, "[" + sender + "] ", ""))
  {
    SplitCons(level, Separator, sender);
    ContainsChar(sender, Separator);
    assert IndexOf(sender, [Separator]).None?;
    assert Split(sender, [Separator]) == [sender];
    assert Split(level + [Separator] + sender, [Separator]) == [level, sender];
  }

  /** A line without any `|` has no sender: an integer level ends the process with
      status 1, anything else with status -1. */
  lemma ProcessLineWithoutSender(line: string)
    requires Separator !in line
    ensures ProcessLine(line).Failure?
    ensures ProcessLine(line).error == (if ParseInt(line).Some? then MalformedLineExit else BadLevelExit)
  {
    ContainsChar(line, Separator);
    assert IndexOf(line, [Separator]).None?;
    assert Split(line, [Separator]) == [line];
  }

  // ---------------------------------------------------------------------------
  // log_line and output_line
  // ---------------------------------------------------------------------------

  /** log_line: in daemon mode only the update manager and the stopping messages reach
      slips.log (everything printed is already redirected there); otherwise every line does. */
  function LogLine(cfg: Config, sender: string, msg: string): (r: Option<Entry>)
    ensures !cfg.daemon ==> r == Some(Entry(sender, msg))
    ensures cfg.daemon ==> (r.Some? <==> Contains(sender, "update") || Contains(sender, "stopping"))
    ensures r.Some? ==> r.value == Entry(sender, msg)
  {
    if cfg.daemon && !Contains(sender, "update") && !Contains(sender, "stopping") then None
    else Some(Entry(sender, msg))
  }

  /** The terminal colour codes wrapped around developer warnings (debug digit 3). */
  const WarningColour: string := "\U{1B}[0;35;40m"
  const ResetColour: string := "\U{1B}[00m"

  /** The message as output_line writes it: highlighted when the debug digit is 3. */
  function Shade(debugLevel: int, msg: string): (r: string)
    ensures debugLevel == 3 ==> r == WarningColour + msg + ResetColour
    ensures debugLevel != 3 ==> r == msg
  {
    if debugLevel == 3 then WarningColour + msg + ResetColour else msg
  }

  /** The colour codes neither create nor hide a `Start` banner: output_line tests the
      highlighted message, and the answer is the one for the message itself. */
  lemma ShadeKeepsStart(debugLevel: int, msg: string)
    ensures Contains(Shade(debugLevel, msg), "Start") <==> Contains(msg, "Start")
  {
    if debugLevel == 3 {
      assert forall k :: 0 <= k < |WarningColour| ==> WarningColour[k] !in "Start";
      assert forall k :: 0 <= k < |ResetColour| ==> ResetColour[k] !in "Start";
      ContainsWrapped(WarningColour, msg, ResetColour, "Start");
    }
  }

  /** The verbosity or the debug digit is active (1 to 3) and within the configured level. */
  predicate Shown(cfg: Config, verboseLevel: int, debugLevel: int) {
    || (0 < verboseLevel <= 3 && verboseLevel <= cfg.verbose)
    || (0 < debugLevel <= 3 && debugLevel <= cfg.debug)
  }

  /** Where one parsed line goes: printed text, slips.log entry, errors.log entry. */
  datatype Routing = Routing(printed: Option<string>, logged: Option<Entry>, errorLogged: Option<Entry>)

  /** The order in which output_line acts: print, then slips.log, then errors.log; a
      shutdown publishes last. */
  function Stage(e: Effect): nat {
    match e
    case Print(_) => 0
    case SlipsLog(_) => 1
    case ErrorLog(_) => 2
    case Publish(_, _) => 3
  }

  /** The routing as effects, in the order output_line performs them: each routed output
      appears exactly once, and nothing else does. */
  function Effects(r: Routing): (effs: seq<Effect>)
    ensures forall t :: Print(t) in effs <==> r.printed == Some(t)
    ensures forall e :: SlipsLog(e) in effs <==> r.logged == Some(e)
    ensures forall e :: ErrorLog(e) in effs <==> r.errorLogged == Some(e)
    ensures forall k :: 0 <= k < |effs| ==> !effs[k].Publish?
    ensures forall i, j :: 0 <= i < j < |effs| ==> Stage(effs[i]) < Stage(effs[j])
  {
    (if r.printed.Some? then [Print(r.printed.value)] else [])
    + (if r.logged.Some? then [SlipsLog(r.logged.value)] else [])
    + (if r.errorLogged.Some? then [ErrorLog(r.errorLogged.value)] else [])
  }

  /** output_line: None where reading the two digits of the level raises ValueError. */
  function OutputLine(cfg: Config, level: string, sender: string, msg: string): (r: Option<Routing>)
    requires |level| >= 2
    ensures r.None? <==> !IsDigit(level[0]) || !IsDigit(level[1])
    ensures r.Some? ==>
      var v, d := DigitValue(level[0]), DigitValue(level[1]);
      var text := Shade(d, msg);
      && (r.value.printed.Some? <==> Shown(cfg, v, d))
      && (Shown(cfg, v, d) && Contains(text, "Start") ==> r.value.printed == Some(text) && r.value.logged.None?)
      && (Shown(cfg, v, d) && !Contains(text, "Start") ==>
            r.value.printed == Some(sender + text) && r.value.logged == LogLine(cfg, sender, text))
      && (!Shown(cfg, v, d) ==> r.value.logged.None?)
      && (r.value.errorLogged.Some? <==> d == 1 && !(Shown(cfg, v, d) && Contains(text, "Start")))
      && (r.value.errorLogged.Some? ==> r.value.errorLogged == Some(Entry(sender, text)))
  {
    if !IsDigit(level[0]) || !IsDigit(level[1]) then None
    else
      var v, d := DigitValue(level[0]), DigitValue(level[1]);
      var text := Shade(d, msg);
      var shown := Shown(cfg, v, d);
      if shown && Contains(text, "Start") then
        Some(Routing(Some(text), None, None))
      else
        Some(Routing(
          if shown then Some(sender + text) else None,
          if shown then LogLine(cfg, sender, text) else None,
          if d == 1 then Some(Entry(sender, text)) else None))
  }

  /** Level "00", which process_line substitutes for every bad level, is never printed
      nor logged, whatever the configuration. */
  lemma SilentLevel(cfg: Config, sender: string, msg: string)
    ensures OutputLine(cfg, "00", sender, msg) == Some(Routing(None, None, None))
  {
  }

  /** Debug digit 1 sends the line to errors.log whatever the configured levels, unless
      it is printed as a `Start` banner. */
  lemma ErrorsReachErrorLog(cfg: Config, level: string, sender: string, msg: string)
    requires |level| >= 2 && IsDigit(level[0]) && level[1] == '1'
    requires !Contains(msg, "Start")
    ensures OutputLine(cfg, level, sender, msg).value.errorLogged == Some(Entry(sender, msg))
  {
  }

  /** Raising the configured verbosity or debug level never hides a line that was printed. */
  lemma PrintingMonotone(cfg: Config, cfg': Config, level: string, sender: string, msg: string)
    requires |level| >= 2 && IsDigit(level[0]) && IsDigit(level[1])
    requires cfg.verbose <= cfg'.verbose && cfg.debug <= cfg'.debug
    requires OutputLine(cfg, level, sender, msg).value.printed.Some?
    ensures OutputLine(cfg', level, sender, msg).value.printed.Some?
  {
  }

  /** A digit above 3 never opens the gate on its own: a level whose digits are both
      0 or above 3 is never printed. */
  lemma InactiveDigitsSilent(cfg: Config, level: string, sender: string, msg: string)
    requires |level| >= 2 && IsDigit(level[0]) && IsDigit(level[1])
    requires DigitValue(level[0]) !in {1, 2, 3} && DigitValue(level[1]) !in {1, 2, 3}
    ensures OutputLine(cfg, level, sender, msg).value.printed.None?
    ensures OutputLine(cfg, level, sender, msg).value.logged.None?
  {
  }

  // ---------------------------------------------------------------------------
  // run: the loop over the queue
  // ---------------------------------------------------------------------------

  /** Whether the loop is still reading the queue, and if not, how it ended. */
  datatype Status =
    | Listening           // waiting for the next line
    | Stopped             // returned after a graceful shutdown
    | Exited(code: int)   // process_line terminated the process
    | Crashed             // an exception was caught and the loop returned

  datatype RunState = RunState(quiet: bool, status: Status, effects: seq<Effect>)

  const Initial := RunState(false, Listening, [])

  const ShutdownSender := "[Output Process]"
  const ShutdownMessage := " Stopping output process. Further evidence may be missing. Check alerts.log for full evidence list."

  function LogEffects(e: Option<Entry>): seq<Effect> {
    if e.Some? then [SlipsLog(e.value)] else []
  }

  /** shutdown_gracefully: the stopping line for slips.log and the `finished_modules`
      notification. */
  function Shutdown(cfg: Config): (effs: seq<Effect>)
    ensures |effs| >= 1 && effs[|effs| - 1] == Publish("finished_modules", "Output")
    ensures !cfg.daemon ==>
      effs == [SlipsLog(Entry(ShutdownSender, ShutdownMessage)), Publish("finished_modules", "Output")]
  {
    LogEffects(LogLine(cfg, ShutdownSender, ShutdownMessage)) + [Publish("finished_modules", "Output")]
  }

  /** In daemon mode the shutdown writes nothing to slips.log: the output process'
      own sender mentions neither `update` nor `stopping`. */
  lemma DaemonShutdownOnlyPublishes(cfg: Config)
    requires cfg.daemon
    ensures Shutdown(cfg) == [Publish("finished_modules", "Output")]
  {
    assert 'd' !in ShutdownSender && 'i' !in ShutdownSender;
    MissingCharNotContained(ShutdownSender, "update", 'd');
    MissingCharNotContained(ShutdownSender, "stopping", 'i');
  }

  /** A line that ends the loop with a graceful shutdown. */
  predicate IsStop(line: string) {
    Contains(line, "stop_process") || line == "stop"
  }

  /** One iteration of run's loop on a line taken from the queue. */
  function Step(cfg: Config, st: RunState, line: string): (next: RunState)
    requires st.status == Listening
    ensures |st.effects| <= |next.effects| && next.effects[..|st.effects|] == st.effects
    ensures next.quiet == (st.quiet || line == "quiet")
    ensures line == "quiet" ==> next == st.(quiet := true)
    ensures line != "quiet" && IsStop(line) ==> next.status == Stopped
    ensures line != "quiet" && st.quiet ==> next.status == Stopped
    ensures line != "quiet" && IsStop(line) ==> next.effects == st.effects + Shutdown(cfg)
    ensures line != "quiet" && !IsStop(line) && st.quiet ==>
      next.effects == st.effects + [Print("Stopping the output process")] + Shutdown(cfg)
    ensures (line != "quiet" && !IsStop(line) && !st.quiet && Contains(line, "log-only")
             && ProcessLine(Remove(line, "log-only")).Success?) ==>
      var p := ProcessLine(Remove(line, "log-only")).value;
      next == st.(effects := st.effects + LogEffects(LogLine(cfg, p.sender, p.msg)))
    ensures (line != "quiet" && !IsStop(line) && !st.quiet && !Contains(line, "log-only")
             && ProcessLine(line).Success?) ==>
      var p := ProcessLine(line).value;
      && (OutputLine(cfg, p.level, p.sender, p.msg).Some? ==>
            next == st.(effects := st.effects + Effects(OutputLine(cfg, p.level, p.sender, p.msg).value)))
      && (OutputLine(cfg, p.level, p.sender, p.msg).None? ==> next == st.(status := Crashed))
  {
    if line == "quiet" then
      st.(quiet := true)
    else if IsStop(line) then
      st.(status := Stopped, effects := st.effects + Shutdown(cfg))
    else if !st.quiet then
      if Contains(line, "log-only") then
        match ProcessLine(Remove(line, "log-only"))
        case Failure(code) => st.(status := Exited(code))
        case Success(p) => st.(effects := st.effects + LogEffects(LogLine(cfg, p.sender, p.msg)))
      else
        match ProcessLine(line)
        case Failure(code) => st.(status := Exited(code))
        case Success(p) =>
          match OutputLine(cfg, p.level, p.sender, p.msg)
          case None => st.(status := Crashed)
          case Some(routing) => st.(effects := st.effects + Effects(routing))
    else
      st.(status := Stopped, effects := st.effects + [Print("Stopping the output process")] + Shutdown(cfg))
  }

  /** run from state `st` over the lines still in the queue; once the loop has returned,
      the remaining lines are never read. */
  function RunFrom(cfg: Config, st: RunState, lines: seq<string>): (r: RunState)
    ensures st.status != Listening ==> r == st
    ensures |st.effects| <= |r.effects| && r.effects[..|st.effects|] == st.effects
    ensures st.quiet ==> r.quiet
    decreases |lines|
  {
    if |lines| == 0 || st.status != Listening then st
    else RunFrom(cfg, Step(cfg, st, lines[0]), lines[1..])
  }

  /** run over a queue holding `lines`. */
  function Run(cfg: Config, lines: seq<string>): RunState {
    RunFrom(cfg, Initial, lines)
  }

  /** Reading two stretches of the queue one after the other is reading their concatenation. */
  lemma {:induction false} RunFromAppend(cfg: Config, st: RunState, a: seq<string>, b: seq<string>)
    ensures RunFrom(cfg, st, a + b) == RunFrom(cfg, RunFrom(cfg, st, a), b)
    decreases |a|
  {
    if |a| == 0 {
      assert a + b == b;
    } else if st.status == Listening {
      assert (a + b)[0] == a[0];
      assert (a + b)[1..] == a[1..] + b;
      RunFromAppend(cfg, Step(cfg, st, a[0]), a[1..], b);
    }
  }

  /** A stop line ends the loop: nothing queued after it has any effect. */
  lemma StopEndsRun(cfg: Config, before: seq<string>, line: string, after: seq<string>)
    requires IsStop(line)
    ensures Run(cfg, before + [line]).status != Listening
    ensures Run(cfg, before + [line] + after) == Run(cfg, before + [line])
  {
    var mid := RunFrom(cfg, Initial, before);
    RunFromAppend(cfg, Initial, before, [line]);
    assert RunFrom(cfg, mid, [line]).status != Listening by {
      if mid.status == Listening {
        assert "quiet" != line by {
          MissingCharNotContained("quiet", "stop_process", 's');
        }
      }
    }
    RunFromAppend(cfg, Initial, before + [line], after);
  }

  /** While the loop is still listening, no stop line has been read. */
  lemma {:induction false} ListeningSawNoStop(cfg: Config, st: RunState, lines: seq<string>)
    requires RunFrom(cfg, st, lines).status == Listening
    ensures st.status == Listening
    ensures forall k :: 0 <= k < |lines| ==> !IsStop(lines[k])
    decreases |lines|
  {
    if |lines| > 0 {
      ListeningSawNoStop(cfg, Step(cfg, st, lines[0]), lines[1..]);
      assert forall k :: 1 <= k < |lines| ==> lines[k] == lines[1..][k - 1];
    }
  }

  /** Once `quiet` has been received, the next other line ends the loop. */
  lemma QuietThenStop(cfg: Config, before: seq<string>, line: string)
    requires Run(cfg, before).quiet && Run(cfg, before).status == Listening
    requires line != "quiet"
    ensures Run(cfg, before + [line]).status == Stopped
  {
    RunFromAppend(cfg, Initial, before, [line]);
  }

  /** A `log-only` line is written to slips.log at most and never printed. */
  lemma LogOnlyNeverPrinted(cfg: Config, st: RunState, line: string)
    requires st.status == Listening && !st.quiet
    requires line != "quiet" && !IsStop(line) && Contains(line, "log-only")
    ensures var next := Step(cfg, st, line);
      forall k :: |st.effects| <= k < |next.effects| ==> next.effects[k].SlipsLog?
  {
  }

  /** A line `log-only<line>` whose rest is a well-formed line is logged as that rest, with
      the marker gone, exactly as log_line would log it, and is not printed. */
  lemma LogOnlyLineLogged(cfg: Config, st: RunState, rest: string)
    requires st.status == Listening && !st.quiet
    requires !Contains(rest, "log-only") && !IsStop("log-only" + rest)
    requires ProcessLine(rest).Success?
    ensures var p := ProcessLine(rest).value;
      Step(cfg, st, "log-only" + rest) == st.(effects := st.effects + LogEffects(LogLine(cfg, p.sender, p.msg)))
  {
    var line := "log-only" + rest;
    assert line[..8] == "log-only";
    assert OccursAt(line, "log-only", 0);
    assert line != "quiet" by {
      assert |line| >= 8;
    }
    RemoveLeadingPattern("log-only", rest);
  }

  /** A line that process_line rejects ends the process with process_line's exit status,
      and nothing more is written for it. */
  lemma MalformedLineExits(cfg: Config, st: RunState, line: string)
    requires st.status == Listening && !st.quiet
    requires line != "quiet" && !IsStop(line)
    requires ProcessLine(if Contains(line, "log-only") then Remove(line, "log-only") else line).Failure?
    ensures var next := Step(cfg, st, line);
      && next.status == Exited(ProcessLine(if Contains(line, "log-only") then Remove(line, "log-only") else line).error)
      && next.effects == st.effects
  {
  }

  /** A level `-0` passes process_line (its value is 0 and it has two characters), but
      output_line cannot read `-` as a digit: the loop returns without shutting down. */
  lemma NegativeZeroLevelCrashes(cfg: Config, st: RunState, sender: string, msg: string)
    requires st.status == Listening && !st.quiet
    requires Separator !in sender
    requires var line := "-0" + [Separator] + sender + [Separator] + msg;
      !Contains(line, "stop_process") && !Contains(line, "log-only")
    ensures Step(cfg, st, "-0" + [Separator] + sender + [Separator] + msg).status == Crashed
  {
    var line := "-0" + [Separator] + sender + [Separator] + msg;
    assert ParseInt("-0") == Some(0) by {
      assert "-0"[1..] == "0";
      assert "0"[..0] == "";
    }
    ProcessWellFormedLine("-0", sender, msg);
    assert line != "quiet" && line != "stop" by {
      assert line[0] == '-';
    }
  }
}

=== FILE: strings.dfy ===
/** The Python `str` operations the modelled code relies on: `in`, `find`, `split`,
    `join`, `replace(pat, '')`, `strip`, `lower` and `int()` on a numeral. */
module Strings {
  import opened Wrappers

  // ---------------------------------------------------------------------------
  // Occurrences: `sub in s` and `s.find(sub)`
  // ---------------------------------------------------------------------------

  /** `sub` occurs in `s` starting at index `i`. */
  predicate OccursAt(s: string, sub: string, i: int) {
    0 <= i && i + |sub| <= |s| && s[i..i + |sub|] == sub
  }

  /** Index of the leftmost occurrence of `sub` in `s` (`str.find`, with None for -1). */
  function IndexOf(s: string, sub: string): (r: Option<nat>)
    ensures r.Some? ==> OccursAt(s, sub, r.value)
    ensures r.Some? ==> forall i :: 0 <= i < r.value ==> !OccursAt(s, sub, i)
    ensures r.None? ==> forall i :: !OccursAt(s, sub, i)
    decreases |s|
  {
    if |s| < |sub| then None
    else if sub <= s then Some(0)
    else
      match IndexOf(s[1..], sub)
      case None => ShiftOccurrences(s, sub); None
      case Some(i) => ShiftOccurrences(s, sub); Some(i + 1)
  }

  /** An occurrence at index i + 1 of `s` is an occurrence at index i of `s[1..]`. */
  lemma ShiftOccurrences(s: string, sub: string)
    requires |s| > 0
    ensures forall i {:trigger OccursAt(s, sub, i)} :: 1 <= i ==> (OccursAt(s, sub, i) <==> OccursAt(s[1..], sub, i - 1))
  {
    forall i | 1 <= i
      ensures OccursAt(s, sub, i) <==> OccursAt(s[1..], sub, i - 1)
    {
      if i + |sub| <= |s| {
        var here, there := s[i..i + |sub|], s[1..][i - 1..i - 1 + |sub|];
        assert forall k :: 0 <= k < |here| ==> here[k] == there[k];
        assert here == there;
      }
    }
  }

  /** Python's `sub in s`. */
  function Contains(s: string, sub: string): (r: bool)
    ensures r <==> exists i :: OccursAt(s, sub, i)
  {
    IndexOf(s, sub).Some?
  }

  /** Every string contains itself. */
  lemma ContainsSelf(s: string)
    ensures Contains(s, s)
  {
    assert OccursAt(s, s, 0);
  }

  /** A string lacking a character of `sub` cannot contain `sub`. */
  lemma MissingCharNotContained(s: string, sub: string, c: char)
    requires c in sub && c !in s
    ensures !Contains(s, sub)
  {
  }

  /** For a one-character pattern, an occurrence is just that character at that index. */
  lemma OccursAtChar(s: string, c: char)
    ensures forall i {:trigger OccursAt(s, [c], i)} :: OccursAt(s, [c], i) <==> 0 <= i < |s| && s[i] == c
  {
    forall i | 0 <= i < |s|
      ensures OccursAt(s, [c], i) <==> s[i] == c
    {
      assert s[i..i + 1] == [s[i]];
    }
  }

  /** `Contains` on a one-character pattern is sequence membership. */
  lemma ContainsChar(s: string, c: char)
    ensures Contains(s, [c]) <==> c in s
  {
    OccursAtChar(s, c);
    if c in s {
      var i :| 0 <= i < |s| && s[i] == c;
      assert OccursAt(s, [c], i);
    }
  }

  /** Wrapping `m` in text that shares no character with `sub` neither creates nor
      hides an occurrence of `sub`. */
  lemma ContainsWrapped(a: string, m: string, b: string, sub: string)
    requires |sub| > 0
    requires forall k :: 0 <= k < |a| ==> a[k] !in sub
    requires forall k :: 0 <= k < |b| ==> b[k] !in sub
    ensures Contains(a + m + b, sub) <==> Contains(m, sub)
  {
    var s := a + m + b;
    if Contains(m, sub) {
      var i :| OccursAt(m, sub, i);
      assert s[|a| + i..|a| + i + |sub|] == m[i..i + |sub|];
      assert OccursAt(s, sub, |a| + i);
    }
    if Contains(s, sub) {
      var i :| OccursAt(s, sub, i);
      assert s[i] == sub[0] by {
        assert s[i..i + |sub|][0] == s[i];
      }
      if i < |a| {
        assert false;
      }
      var last := i + |sub| - 1;
      assert s[last] == sub[|sub| - 1] by {
        assert s[i..i + |sub|][|sub| - 1] == s[last];
      }
      if last >= |a| + |m| {
        assert false;
      }
      assert m[i - |a|..i - |a| + |sub|] == s[i..i + |sub|];
      assert OccursAt(m, sub, i - |a|);
    }
  }

  // ---------------------------------------------------------------------------
  // `sep.join(parts)`, `s.split(sep)` and `s.replace(pat, '')`
  // ---------------------------------------------------------------------------

  /** Python's `sep.join(parts)`. */
  function Join(parts: seq<string>, sep: string): string
  {
    if |parts| == 0 then ""
    else if |parts| == 1 then parts[0]
    else parts[0] + sep + Join(parts[1..], sep)
  }

  /** Python's `''.join(parts)`. */
  function Concat(parts: seq<string>): string
  {
    Join(parts, "")
  }

  /** Python's `s.split(sep)` for a non-empty separator: the pieces between the
      non-overlapping occurrences of `sep`, scanned left to right. */
  function Split(s: string, sep: string): (parts: seq<string>)
    requires |sep| > 0
    ensures |parts| >= 1
    ensures |parts| >= 2 <==> Contains(s, sep)
    ensures forall k :: 0 <= k < |parts| ==> !Contains(parts[k], sep)
    decreases |s|
  {
    match IndexOf(s, sep)
    case None => [s]
    case Some(i) =>
      var head, rest := s[..i], s[i + |sep|..];
      assert !Contains(head, sep) by {
        forall j | OccursAt(head, sep, j)
          ensures false
        {
          assert head[j..j + |sep|] == s[j..j + |sep|];
          assert OccursAt(s, sep, j);
        }
      }
      [head] + Split(rest, sep)
  }

  /** Joining the pieces with the separator gives back the string split. */
  lemma {:induction false} SplitJoin(s: string, sep: string)
    requires |sep| > 0
    ensures Join(Split(s, sep), sep) == s
    decreases |s|
  {
    match IndexOf(s, sep)
    case None =>
    case Some(i) =>
      var head, rest := s[..i], s[i + |sep|..];
      assert s == head + sep + rest by {
        assert s[i..i + |sep|] == sep;
        assert s == s[..i] + s[i..i + |sep|] + s[i + |sep|..];
      }
      SplitJoin(rest, sep);
      assert ([head] + Split(rest, sep))[1..] == Split(rest, sep);
  }

  /** Splitting a line whose first field holds no separator character peels off that field. */
  lemma SplitCons(a: string, c: char, b: string)
    requires c !in a
    ensures Split(a + [c] + b, [c]) == [a] + Split(b, [c])
  {
    var s := a + [c] + b;
    OccursAtChar(s, c);
    assert OccursAt(s, [c], |a|);
    var i := IndexOf(s, [c]).value;
    assert i == |a|;
    assert s[..i] == a;
    assert s[i + 1..] == b;
  }

  /** Python's `s.replace(pat, '')` for a non-empty pattern: every non-overlapping
      occurrence, scanned left to right, is deleted. */
  function Remove(s: string, pat: string): string
    requires |pat| > 0
  {
    Concat(Split(s, pat))
  }

  /** Splitting a line whose first two fields hold no separator character peels off both. */
  lemma SplitCons2(a: string, b: string, c: char, m: string)
    requires c !in a && c !in b
    ensures Split(a + [c] + b + [c] + m, [c]) == [a, b] + Split(m, [c])
  {
    var tail, rest := b + [c] + m, Split(m, [c]);
    assert a + [c] + b + [c] + m == a + [c] + tail;
    assert [a] + ([b] + rest) == [a, b] + rest;
    SplitCons(b, c, m);
    SplitCons(a, c, tail);
  }

  /** Splitting on a separator whose first character does not recur in it (such as
      `timewindow`): when `a` holds no separator, the first piece of `a + sep + b` is `a`
      and the rest is the split of `b`. */
  lemma SplitBefore(a: string, sep: string, b: string)
    requires |sep| > 0 && sep[0] !in sep[1..] && !Contains(a, sep)
    ensures Split(a + sep + b, sep) == [a] + Split(b, sep)
  {
    var s := a + sep + b;
    assert OccursAt(s, sep, |a|) by {
      assert s[|a|..|a| + |sep|] == sep;
    }
    forall j | 0 <= j < |a| ensures !OccursAt(s, sep, j) {
      if j + |sep| <= |a| {
        assert s[j..j + |sep|] == a[j..j + |sep|];
        assert !OccursAt(a, sep, j);
      } else {
        var k := |a| - j;
        assert s[j..j + |sep|][k] == s[|a|] == sep[0];
        assert sep[k] != sep[0] by {
          assert sep[1..][k - 1] == sep[k];
        }
      }
    }
    assert IndexOf(s, sep) == Some(|a|);
    assert s[..|a|] == a;
    assert s[|a| + |sep|..] == b;
  }

  /** Deleting a pattern from a string that starts with it, and holds it nowhere else,
      leaves the rest of the string. */
  lemma RemoveLeadingPattern(pat: string, body: string)
    requires |pat| > 0 && !Contains(body, pat)
    ensures Remove(pat + body, pat) == body
  {
    var s := pat + body;
    assert pat <= s;
    assert IndexOf(s, pat) == Some(0);
    assert s[|pat|..] == body;
    assert s[..0] == "";
    assert Split(body, pat) == [body];
    assert Split(s, pat) == [""] + [body];
    assert Join(["", body], "") == "" + "" + Join([body], "") by {
      assert ["", body][1..] == [body];
    }
  }

  /** The characters of `s` other than `c`, in order: an independent definition of
      deleting one character everywhere. */
  function Without(s: string, c: char): (r: string)
    ensures c !in r
    ensures |r| <= |s|
  {
    if |s| == 0 then ""
    else (if s[0] == c then "" else [s[0]]) + Without(s[1..], c)
  }

  lemma WithoutAppend(a: string, b: string, c: char)
    ensures Without(a + b, c) == Without(a, c) + Without(b, c)
  {
    if |a| == 0 {
      assert a + b == b;
    } else {
      assert (a + b)[0] == a[0];
      assert (a + b)[1..] == a[1..] + b;
      WithoutAppend(a[1..], b, c);
    }
  }

  lemma WithoutAbsent(s: string, c: char)
    requires c !in s
    ensures Without(s, c) == s
  {
  }

  /** Deleting a one-character pattern with `Remove` drops exactly that character. */
  lemma {:induction false} RemoveChar(s: string, c: char)
    ensures Remove(s, [c]) == Without(s, c)
    decreases |s|
  {
    OccursAtChar(s, c);
    match IndexOf(s, [c])
    case None =>
      forall j | 0 <= j < |s|
        ensures s[j] != c
      {
        assert !OccursAt(s, [c], j);
      }
      WithoutAbsent(s, c);
    case Some(i) =>
      var head, rest := s[..i], s[i + 1..];
      assert c !in head by {
        forall j | 0 <= j < |head|
          ensures head[j] != c
        {
          assert !OccursAt(s, [c], j);
        }
      }
      assert s == head + [c] + rest by {
        assert s[i] == c;
        assert s == s[..i] + [s[i]] + s[i + 1..];
      }
      RemoveChar(rest, c);
      RemoveCharAt(head, c, rest);
  }

  /** One step of RemoveChar: the first occurrence splits off a separator-free head. */
  lemma RemoveCharAt(head: string, c: char, rest: string)
    requires c !in head
    requires Remove(rest, [c]) == Without(rest, c)
    ensures Remove(head + [c] + rest, [c]) == Without(head + [c] + rest, c)
  {
    SplitCons(head, c, rest);
    var tail := Split(rest, [c]);
    assert Concat([head] + tail) == head + Concat(tail) by {
      assert ([head] + tail)[1..] == tail;
    }
    WithoutAppend(head + [c], rest, c);
    WithoutAppend(head, [c], c);
    WithoutAbsent(head, c);
  }

  // ---------------------------------------------------------------------------
  // `str.strip()` and `str.lower()`
  // ---------------------------------------------------------------------------

  /** Python's `str.isspace` for one character: ASCII whitespace, the information
      separators 0x1C-0x1F and the Unicode space and line-break characters. */
  predicate IsSpace(c: char) {
    var n := c as int;
    n == 0x20 || 0x09 <= n <= 0x0D || 0x1C <= n <= 0x1F || n == 0x85 || n == 0xA0
    || n == 0x1680 || 0x2000 <= n <= 0x200A || n == 0x2028 || n == 0x2029
    || n == 0x202F || n == 0x205F || n == 0x3000
  }

  /** The length of the run of whitespace that opens `s` (what `str.lstrip()` drops). */
  function LeadingSpaces(s: string): (n: nat)
    ensures n <= |s|
    ensures forall i :: 0 <= i < n ==> IsSpace(s[i])
    ensures n < |s| ==> !IsSpace(s[n])
  {
    if |s| > 0 && IsSpace(s[0]) then 1 + LeadingSpaces(s[1..]) else 0
  }

  /** The length of the run of whitespace that closes `s` (what `str.rstrip()` drops). */
  function TrailingSpaces(s: string): (n: nat)
    ensures n <= |s|
    ensures forall i :: |s| - n <= i < |s| ==> IsSpace(s[i])
    ensures n < |s| ==> !IsSpace(s[|s| - n - 1])
  {
    if |s| > 0 && IsSpace(s[|s| - 1]) then 1 + TrailingSpaces(s[..|s| - 1]) else 0
  }

  /** Python's `str.strip()`: the infix of `s` left once its leading and its trailing
      whitespace are removed. */
  function Strip(s: string): (r: string)
    ensures var lead := LeadingSpaces(s);
      && lead + |r| <= |s| && r == s[lead..lead + |r|]
      && (forall i :: 0 <= i < lead ==> IsSpace(s[i]))
      && (forall i :: lead + |r| <= i < |s| ==> IsSpace(s[i]))
    ensures |r| > 0 ==> !IsSpace(r[0]) && !IsSpace(r[|r| - 1])
    ensures |r| == 0 <==> forall i :: 0 <= i < |s| ==> IsSpace(s[i])
  {
    var lead := LeadingSpaces(s);
    if lead == |s| then []
    else
      var trail := TrailingSpaces(s);
      s[lead..|s| - trail]
  }

  /** A string with no whitespace at either end is left unchanged by `strip`. */
  lemma StripUnchanged(s: string)
    requires |s| > 0 ==> !IsSpace(s[0]) && !IsSpace(s[|s| - 1])
    ensures Strip(s) == s
  {
  }

  /** Python's `str.lower()` on one character (ASCII letters only). */
  function LowerChar(c: char): char {
    if 'A' <= c <= 'Z' then (c as int + 32) as char else c
  }

  /** Python's `str.lower()`, character by character. */
  function Lower(s: string): (r: string)
    ensures |r| == |s|
    ensures forall i :: 0 <= i < |s| ==> r[i] == LowerChar(s[i])
  {
    seq(|s|, i requires 0 <= i < |s| => LowerChar(s[i]))
  }

  /** A lowered string holds no upper-case ASCII letter, so lowering it again changes
      nothing. */
  lemma LowerNoUpper(s: string)
    ensures forall i :: 0 <= i < |s| ==> !('A' <= Lower(s)[i] <= 'Z')
    ensures Lower(Lower(s)) == Lower(s)
  {
    var l := Lower(s);
    forall i | 0 <= i < |s| ensures !('A' <= l[i] <= 'Z') && LowerChar(l[i]) == l[i] {
      assert l[i] == LowerChar(s[i]);
    }
  }

  // ---------------------------------------------------------------------------
  // `int(s)` on a decimal numeral with an optional minus sign
  // ---------------------------------------------------------------------------

  predicate IsDigit(c: char) {
    '0' <= c <= '9'
  }

  /** A non-empty run of decimal digits. */
  predicate IsNumeral(s: string) {
    |s| > 0 && forall i :: 0 <= i < |s| ==> IsDigit(s[i])
  }

  function DigitValue(c: char): nat
    requires IsDigit(c)
  {
    c as int - '0' as int
  }

  function DigitChar(d: nat): (c: char)
    requires d < 10
    ensures IsDigit(c) && DigitValue(c) == d
  {
    ('0' as int + d) as char
  }

  /** The value of a run of decimal digits, read most significant first. */
  function NumeralValue(s: string): nat
    requires forall i :: 0 <= i < |s| ==> IsDigit(s[i])
  {
    if |s| == 0 then 0 else NumeralValue(s[..|s| - 1]) * 10 + DigitValue(s[|s| - 1])
  }

  /** Python's `int(s)` restricted to an optional `-` followed by decimal digits;
      None where Python raises ValueError. */
  function ParseInt(s: string): Option<int>
  {
    if |s| > 0 && s[0] == '-' then
      if IsNumeral(s[1..]) then Some(0 - NumeralValue(s[1..]) as int) else None
    else if IsNumeral(s) then Some(NumeralValue(s))
    else None
  }

  /** The decimal numeral of `n` without leading zeros (Python's `str(n)`). */
  function ShowNat(n: nat): (r: string)
    ensures IsNumeral(r)
  {
    if n < 10 then [DigitChar(n)] else ShowNat(n / 10) + [DigitChar(n % 10)]
  }

  function ShowInt(n: int): string
  {
    if n < 0 then "-" + ShowNat(-n) else ShowNat(n)
  }

  lemma {:induction false} NumeralShowNat(n: nat)
    ensures NumeralValue(ShowNat(n)) == n
  {
    if n >= 10 {
      var s := ShowNat(n);
      assert s[..|s| - 1] == ShowNat(n / 10);
      NumeralShowNat(n / 10);
    }
  }

  /** `int(str(n)) == n`: parsing inverts decimal rendering. */
  lemma ParseShowInt(n: int)
    ensures ParseInt(ShowInt(n)) == Some(n)
  {
    if n < 0 {
      NumeralShowNat(-n);
      assert ("-" + ShowNat(-n))[1..] == ShowNat(-n);
    } else {
      NumeralShowNat(n);
    }
  }
}

=== FILE: wrappers.dfy ===
/** Failure-compatible result types shared by every module of the model. */
module Wrappers {

  /** A value that may be missing: a Redis key that is not set, a dict lookup that misses. */
  datatype Option<+T> = None | Some(value: T) {

    /** The wrapped value, or `default` when there is none (Python's `dict.get(k, default)`). */
    function GetOr(default: T): T {
      match this
      case Some(v) => v
      case None => default
    }
  }

  /** Either a value or the error that stopped its computation (a Python exception). */
  datatype Result<+T, +E> = Success(value: T) | Failure(error: E) {

    predicate IsFailure() {
      Failure?
    }

    function PropagateFailure<U>(): Result<U, E>
      requires Failure?
    {
      Failure(error)
    }

    function Extract(): T
      requires Success?
    {
      value
    }
  }
}
